=== FILE: README.md ===
# dcapy forecast periods, modelled in Dafny

This project models the `Period` of dcapy's schedule module. A period is a named
time window over which a decline-curve model produces a production forecast. The
forecast drives the period's cashflow line items. The model covers four things:

- **Time-mode validation.** `start` and `end` are both ordinal steps or both
  calendar dates. `date_mode` reports which of the two a period uses.
- **Forecast stamping.** `generate_forecast` runs the curve model on the window,
  writes the period name into a `period` column on every row, and stores the
  result.
- **Cashflow generation.** `generate_cashflow` takes the parameter specs in
  declared order. Each spec adds at most one line item to its target account:
  - without a `multiply` column, the spec's constant and change points are copied;
  - a `multiply` column missing from the forecast skips the spec;
  - otherwise a truthy constant scales the whole forecast column, and dated
    values are multiplied into the column on the time index. When the two
    indexes are equal, rows are multiplied position by position; otherwise the
    two are joined, each matched pair is multiplied, and the time points that
    do not match are dropped.

  At the end, accounts left without line items are removed.

Modules, one per concept:

- `optional.dfy`: `Option` and `Result`, the shapes of Python's `None` and of a
  raised exception.
- `times.dfy`: the two-kind `Time`, `Freq`, truncation of a date to its period,
  and the minimum and maximum of an index.
- `frames.dfy`: forecast tables as rectangular rows of cells, the period stamp,
  column scaling, and index alignment.
- `cashflow_input.dfy`: the shapes of parameter specs and line items.
- `periods.dfy`: the `Period` record, its validated construction and
  assignment, `DateMode`, and `GenerateForecast`.
- `line_items.dfy`: what one spec contributes: a line item, nothing, or an
  error.
- `ordered_lists.dfy`: an insertion-ordered map from keys to lists, with
  append and pruning.
- `cashflow.dfy`: the builder loop, `GenerateCashflow`. It is proved equal to
  a declarative reference: each target's line items grouped in declared order,
  targets in first-seen order, and empty targets removed.
- `findings.dfy`: two places where the source does not do what it evidently
  means to.

The curve model's `forecast` is a function passed to `GenerateForecast`; its
mathematics is not modelled. Numbers are `real`, so multiplication is exact.

Behaviour of the source worth knowing, all modelled as written:

- `generate_cashflow` builds one set of accounts from the whole forecast. It
  does not loop over realizations and does not name the models it builds.
- Absolute mode copies `const_value` and `chgpts` without applying the
  working-interest weight `wi`. This file never reads `wi`.
- When dated values share no time point with the forecast, the line item is
  still appended, just without change points.
- With no forecast or no parameter specs, `generate_cashflow` returns `None`
  rather than raising.
- `generate_forecast` does not re-index date results to the output frequency.
  It passes neither an iteration count nor a percentile to the curve model.

## Model

| member | source | states |
|---|---|---|
| Times.IndexMin | dcapy/models/schedule.py:89 | an empty index has no minimum (pandas gives NaN); otherwise the result is an element of the index and no element precedes it |
| Times.IndexMax | dcapy/models/schedule.py:90 | an empty index has no maximum; otherwise the result is an element of the index and no element follows it |
| Times.ToPeriod | dcapy/models/schedule.py:114 | `to_period` of a date is the first day of the period it falls in: same year and month with day 1 for monthly, January 1 of its year for annual, the date itself for daily; that day never follows the date (dates have a month in 1..12 and a day in 1..31); ordinals pass unchanged |
| Times.ToPeriodProperties | dcapy/models/schedule.py:114 | converting a date to its output-frequency period is idempotent; dates in the same month share their monthly period; daily periods leave dates unchanged |
| Frames.StampPeriod | dcapy/models/schedule.py:64 | after `forecast['period'] = name`, the columns gain `period`, every row's `period` cell is the name, and the index and all other cells are unchanged |
| Frames.Align | dcapy/models/schedule.py:117 | `multiply` then `dropna`: when the two indexes are equal, entry `i` is forecast entry `i` times spec entry `i`; otherwise a time point occurring `a` times in the forecast and `b` times in the spec occurs `a * b` times in the result |
| Frames.AlignPairs | dcapy/models/schedule.py:117 | when the indexes differ, the aligned series holds exactly the products of the matched pairs, each once: the same multiset as the spec-first reference `PairProducts` |
| Frames.JoinPairs | dcapy/models/schedule.py:117 | the join of two series holds, up to order, exactly one product per pair of a forecast entry and a spec entry at the same time point, as enumerated spec-first by `PairProducts` |
| Frames.AlignCount | dcapy/models/schedule.py:117 | a time point occurs after alignment as often as in the forecast when the indexes are equal, and otherwise `a * b` times when it occurs `a` times in the forecast and `b` times in the spec |
| Frames.AlignKeys | dcapy/models/schedule.py:117 | after alignment and `dropna`, a time point is present exactly when both the forecast column and the spec series have it (both directions) |
| Frames.AlignValues | dcapy/models/schedule.py:117 | every aligned value is a forecast value times a spec value, both taken at that value's time point |
| Periods.FieldErrors | dcapy/models/schedule.py:30-46 | the validation error lists the mismatched end type exactly when a given end's kind differs from the start's, and each negative limit exactly when that limit is below zero, each failed field once and in declaration order (`end`, `rate_limit`, `cum_limit`) |
| Periods.NewPeriod | dcapy/models/schedule.py:27-46 | construction succeeds exactly when an end that is given has the start's type and both limits are absent or non-negative (`None` stands for an omitted end); a new period stores every given field unchanged, has matching modes and no forecast |
| Periods.SetEnd | dcapy/models/schedule.py:42-50 | with validated assignment the end validator runs on every new value, `None` included, and `type(None)` never equals the start's type: setting `end` succeeds exactly when the new end is a time of the start's kind, then changes nothing else; otherwise it raises the type-mismatch error |
| Periods.SetStart | dcapy/models/schedule.py:30 | assigning `start` has no validator: the start is replaced, and the end and every other field are kept |
| Periods.SetStartCanBreakModes | dcapy/models/schedule.py:42-50 | since only `end` is validated, assigning a start of the other kind can break the start/end agreement that construction establishes |
| Periods.DateMode | dcapy/models/schedule.py:52-56 | `date_mode` is true exactly for a date start and false exactly for an ordinal start; on a period whose modes agree it also reports the kind of a given end |
| Periods.NewPeriodDateMode | dcapy/models/schedule.py:42-56 | for every successfully constructed period, `date_mode` is true exactly when the start is a date, and then also exactly when a given end is a date |
| Periods.GenerateForecast | dcapy/models/schedule.py:58-66 | the stored forecast is the returned one; it is the curve model's output for the period's window, with `period` set to the period name on every row and all other columns and the index unchanged |
| Periods.GenerateForecastIdempotent | dcapy/models/schedule.py:58-66 | running the forecast twice with the same curve model leaves the same period and forecast as running it once |
| LineItems.MultiplyColumn | dcapy/models/schedule.py:95 | a multiply column is in effect exactly when `multiply` is set and non-empty, as Python truthiness has it |
| LineItems.SpecSeries | dcapy/models/schedule.py:114-115 | the spec's values keyed by its dates; in date mode each date becomes the output-frequency period it falls in, and in ordinal mode it is used as is |
| LineItems.ScaledColumn | dcapy/models/schedule.py:106-108 | the scaled column has one value per forecast row, each being that row's column value times the constant |
| LineItems.AlignedChgPts | dcapy/models/schedule.py:110-127 | no change points exactly when the forecast and the spec share no time point; otherwise their dates are exactly the shared time points, with equal numbers of dates and values. When the forecast index equals the spec's, the dates are the forecast index and each value is its row's column value times the spec value at the same position; otherwise the (date, value) pairs are, up to order, one product per matched pair of a forecast row and a spec entry |
| LineItems.AlignedChgPtsCount | dcapy/models/schedule.py:117-127 | a change-point date occurs as often as in the forecast index when that index equals the spec's, and otherwise as many times as the product of its occurrences in the forecast index and in the spec series |
| LineItems.AlignedChgPtsPairs | dcapy/models/schedule.py:117-127 | when the indexes differ, the change points as (date, value) pairs are the same multiset as the spec-first enumeration of matched-pair products |
| LineItems.AbsoluteItem | dcapy/models/schedule.py:87-92 | without a multiply column the item has the spec's name, the forecast bounds and the output frequency; it copies the spec's constant (a zero constant too) and its change points verbatim |
| LineItems.MultipliedItem | dcapy/models/schedule.py:95-127 | in multiply mode the item carries a constant exactly when the spec's constant is truthy (so 0 counts as absent), and then it is the scaled column; change points come only from dated values and are then their alignment. It raises exactly when the column holds text and a truthy constant or dated values multiply it, or when the dated values are malformed |
| LineItems.NoOverlapStillEmits | dcapy/models/schedule.py:117-121 | dated values that share no time point with the forecast leave the item without change points, but the item is still emitted |
| LineItems.Contribute | dcapy/models/schedule.py:84-136 | every emitted item has the spec's name, the forecast's min/max index and the output frequency; a spec is skipped exactly when its multiply column is missing; an empty date index always raises; the other cases are absolute or multiply mode |
| OrderedLists.EnsureKey | dcapy/models/schedule.py:81-82 | a new target is appended last with an empty list; an existing one leaves the map unchanged; keys stay distinct |
| OrderedLists.Append | dcapy/models/schedule.py:136 | the item goes at the end of its target's list; keys, their order and all other lists are unchanged |
| OrderedLists.Prune | dcapy/models/schedule.py:138-142 | exactly the entries with non-empty lists survive, none is empty, and distinct keys stay distinct |
| OrderedLists.PruneConcat | dcapy/models/schedule.py:138-142 | pruning works entry by entry, so surviving accounts keep their relative order |
| OrderedLists.PruneKeepsOrder | dcapy/models/schedule.py:138-142 | whatever order the keys are ranked in, the keys surviving pruning keep that order |
| OrderedLists.PruneAsWritten | dcapy/models/schedule.py:140-142 | the loop as written raises exactly when some account is empty; otherwise it returns the map unchanged |
| OrderedLists.PruneAsWrittenAgrees | dcapy/models/schedule.py:140-142 | when the loop as written does not raise, it agrees with `Prune`; it raises exactly when `Prune` would drop something |
| Cashflow.Targets | dcapy/models/schedule.py:78-82 | the targets created are exactly the specs' targets, each once |
| Cashflow.TargetsFirstSeen | dcapy/models/schedule.py:78-82 | every created target occurs among the specs, and the targets are listed by the position of the first spec naming each |
| Cashflow.ItemsForNonEmpty | dcapy/models/schedule.py:95-136 | a target receives line items exactly when one of its specs emits one |
| Cashflow.ItemsForHeaders | dcapy/models/schedule.py:87-92 | every item under a target has the name of one of that target's specs, the forecast's min/max index as start/end, and the output frequency |
| Cashflow.GroupedStep | dcapy/models/schedule.py:78-136 | one pass of the loop body turns the reference grouping of a prefix of the specs into the grouping of the prefix extended by one spec |
| Cashflow.FirstRaiseStable | dcapy/models/schedule.py:78-136 | once a spec has raised, later specs do not change which error the run reports |
| Cashflow.LoopStep | dcapy/models/schedule.py:78-136 | when no earlier spec raised, the spec at position `i` either raises the run's first error, or leaves no error so far and extends the reference grouping by one loop step |
| Cashflow.GenerateCashflow | dcapy/models/schedule.py:68-146 | there is no model exactly when the forecast or the specs are unset. Otherwise the run raises exactly the first spec's error, if any; when no spec raises, the result equals the reference grouping with empty targets pruned, and has distinct, non-empty accounts |
| Cashflow.ExpectedAccounts | dcapy/models/schedule.py:78-142 | an account is in the result exactly when one of its specs emits an item; each account holds its specs' items in declared order and is non-empty; no account repeats |
| Cashflow.ExpectedHas | dcapy/models/schedule.py:138-142 | pruning keeps a target exactly when it is one of the specs' targets and has at least one line item |
| Cashflow.ExpectedKeys | dcapy/models/schedule.py:78-142 | a target is among the accounts produced exactly when one of its specs emits a line item |
| Cashflow.ExpectedItems | dcapy/models/schedule.py:78-142 | every account produced holds its specs' line items in declared order and is non-empty |
| Cashflow.ExpectedFirstSeen | dcapy/models/schedule.py:78-142 | the accounts produced are listed by the position of the first spec naming each target, since pruning keeps the order targets were created in |
| Cashflow.MissingColumnAddsNothing | dcapy/models/schedule.py:81-103 | a spec whose multiply column is missing adds no line item to any target and raises nothing, yet its target key is still created before pruning |
| Findings.EmptyTargetAsWrittenRaises | dcapy/models/schedule.py:140-142 | if none of a target's specs emits an item, pruning as written raises, while the corrected result omits that target |
| Findings.MissingColumnAsWrittenRaises | dcapy/models/schedule.py:95-103 | a concrete run with one spec on a missing column: the grouped accounts are `capex` with no items, pruning as written raises, and the corrected result is empty |
| Findings.ChgPtsDatesAsWritten | dcapy/models/schedule.py:122-127 | formatting the change-point dates as written succeeds exactly in date mode, and then keeps the dates |
| Findings.OrdinalChgPtsAsWrittenFail | dcapy/models/schedule.py:110-127 | a concrete ordinal run: the corrected change points are (step 0, 6.0), but formatting their dates as written fails |
| Findings.DateChgPtsAsWrittenAgree | dcapy/models/schedule.py:122-127 | in date mode, whenever the corrected builder sets change points for a column, formatting their dates as written keeps exactly those dates |

## Left out

- `Scenario` and `Schedule` (dcapy/models/schedule.py:149-162) are plain containers with no behaviour.
- Per-realization cashflows, `get_end_dates`, `npv`, `irr`, dependency resolution between periods and frequency conversion are not defined in dcapy/models/schedule.py, so they are not modelled.
- The curve model's `forecast` is a function parameter of `GenerateForecast`; decline-curve mathematics is not modelled.
- Building a `CashFlowModel` from the accounts (line 144) is not modelled: cashflow.py is not part of this model, so the result is the accounts themselves.
- Date formatting with `strftime` is not modelled: line item bounds and change-point dates stay `Time` values.
- pydantic coercion of raw input (strings to dates, datetimes to dates) is not modelled: `start` and `end` are already one of the two kinds.
- The `end` validator's `KeyError` when `start` itself failed validation is not modelled, for the same reason.
- Periods.NewPeriod: an `end=None` passed explicitly at construction runs the validator and is rejected; the model's `None` only means an omitted end, which is accepted.
- Console `print` logging on a skipped spec or an empty alignment is not modelled; those cases are visible only through the result.
- The unused `capex_sched`, `opex_sched`, `income_sched`, `freq_format`, `cashflow_out` and `depends` are left out; `depends` is kept as a field only.
- Floating point, NaN and infinity are not modelled: values are reals, so `dropna` only drops positions that do not match.
- LineItems.SpecSeries: in date mode an ordinal spec date is passed through unchanged; `pd.to_datetime` on an integer is not modelled.
- Frames.Align: when the indexes differ, matches come out in forecast row order, and within one time point in spec order. pandas orders the joined index by time point, which gives the same order when the forecast index is ascending; the contract fixes only the multiset of entries in that case.
- LineItems.MultipliedItem: any text cell in a column that a truthy constant or dated values multiply raises. pandas would instead repeat a string when the constant is an integer, and on the dated-values path its masked fallback multiplies only the positions where both sides have a value, so there a text cell at a time point the spec lacks does not raise.
- Times.Leq: a forecast index never mixes ordinals and dates; to keep the order total, ordinals sort first.
- Periods.GenerateForecast: errors raised by the curve model itself are not modelled; the curve model is a total function.

## Findings

| source | as written | input that shows it | evidently intended | confidence | as-written member | corrected member |
|---|---|---|---|---|---|---|
| dcapy/models/schedule.py:140-142 | deletes an empty account from the dict while iterating over it, so the loop raises `RuntimeError` on its next step | an ordinal forecast with only column `oil`, and one spec with target `capex` that multiplies `gas` | drop the empty accounts and keep the rest | not executed | OrderedLists.PruneAsWritten | OrderedLists.Prune |
| dcapy/models/schedule.py:124 | formats the aligned index with `strftime` even in ordinal mode, where an integer index has no such method | an ordinal forecast row at step 0 with `oil` 2.0, and a spec multiplying `oil` with value 3.0 at step 0 | keep ordinal time points as they are, as lines 89-90 do for the bounds | not executed | Findings.ChgPtsDatesAsWritten | LineItems.AlignedChgPts |

The model uses the corrected members throughout: `GenerateCashflow` prunes
with `Prune`, and change points carry the aligned time points.
`Findings.EmptyTargetAsWrittenRaises` and `Findings.MissingColumnAsWrittenRaises`
exhibit the first discrepancy; `Findings.OrdinalChgPtsAsWrittenFail` exhibits
the second.

=== FILE: cashflow.dfy ===
/**
 * Period cashflow generation: every parameter spec, in declared order,
 * contributes at most one line item to its target account; accounts left
 * without line items are dropped.
 */
module Cashflow {
  import opened Optional
  import opened Times
  import opened Frames
  import opened CashflowInput
  import opened Periods
  import opened LineItems
  import opened OrderedLists

  /** Target accounts to their line items, in first-seen order: the input of the cashflow model. */
  type Accounts = Entries<string, LineItem>

  /** The result of generating a cashflow: no model (a precondition is unset), the accounts, or a raised error. */
  datatype CashflowOutcome = NoModel | Built(accounts: Accounts) | Raised(error: CashflowError)

  /** What the builder reads from a forecast period. */
  function ContextOf(p: Period): (ctx: Context)
    requires p.forecast.Some?
  {
    Context(p.forecast.value, DateMode(p), p.freqOutput)
  }

  /** The line items a contribution adds. */
  function Emitted(c: Contribution): seq<LineItem> {
    if c.Emits? then [c.item] else []
  }

  /** The position of the first spec with target `t`, or `|ps|` when no spec has it. */
  function FirstIndex(ps: seq<CashflowParam>, t: string): (j: nat)
    ensures j <= |ps|
    ensures j < |ps| ==> ps[j].target == t
    ensures forall k :: 0 <= k < j ==> ps[k].target != t
  {
    if |ps| == 0 then 0
    else if ps[0].target == t then 0
    else
      var j := FirstIndex(ps[1..], t);
      assert forall k :: 1 <= k < j + 1 ==> ps[k] == ps[1..][k - 1];
      1 + j
  }

  /** Appending a spec keeps the first position of every target that already occurred. */
  lemma FirstIndexSnoc(init: seq<CashflowParam>, p: CashflowParam, t: string)
    ensures FirstIndex(init + [p], t) == if FirstIndex(init, t) < |init| || p.target == t then FirstIndex(init, t) else |init| + 1
  {
    assert forall k :: 0 <= k < |init| ==> (init + [p])[k] == init[k];
    assert (init + [p])[|init|] == p;
  }

  /** The targets of the specs, each once, in the order they first appear (`TargetsFirstSeen`). */
  function Targets(ps: seq<CashflowParam>): (ts: seq<string>)
    ensures forall i, j :: 0 <= i < j < |ts| ==> ts[i] != ts[j]
    ensures forall t :: t in ts <==> exists j :: 0 <= j < |ps| && ps[j].target == t
  {
    if |ps| == 0 then []
    else
      var prev := Targets(ps[..|ps| - 1]);
      assert forall j :: 0 <= j < |ps| - 1 ==> ps[..|ps| - 1][j] == ps[j];
      if ps[|ps| - 1].target in prev then prev else prev + [ps[|ps| - 1].target]
  }

  /** The targets are listed by the position of the first spec naming each. */
  lemma {:induction false} TargetsFirstSeen(ps: seq<CashflowParam>)
    ensures FirstSeenOrder(ps, Targets(ps))
  {
    if |ps| > 0 {
      var init := ps[..|ps| - 1];
      var last := ps[|ps| - 1];
      var prev := Targets(init);
      TargetsFirstSeen(init);
      assert ps == init + [last];
      TargetsSnoc(init, last);
      if last.target in prev {
        TargetsOrderKept(init, last, prev);
      } else {
        FirstIndexAbsent(init, last.target);
        TargetsOrderExtended(init, last, prev);
      }
    }
  }

  /** A target no spec names has no first position. */
  lemma FirstIndexAbsent(ps: seq<CashflowParam>, t: string)
    requires t !in Targets(ps)
    ensures FirstIndex(ps, t) == |ps|
  {
  }

  /** Every target in `ts` occurs among the specs, and `ts` lists them by their first position. */
  predicate FirstSeenOrder(ps: seq<CashflowParam>, ts: seq<string>) {
    && (forall i :: 0 <= i < |ts| ==> FirstIndex(ps, ts[i]) < |ps|)
    && (forall i, j :: 0 <= i < j < |ts| ==> FirstIndex(ps, ts[i]) < FirstIndex(ps, ts[j]))
  }

  /** Appending a spec leaves the first positions of targets already seen unchanged. */
  lemma FirstIndicesKept(init: seq<CashflowParam>, p: CashflowParam, prev: seq<string>)
    requires forall i :: 0 <= i < |prev| ==> FirstIndex(init, prev[i]) < |init|
    ensures forall i :: 0 <= i < |prev| ==> FirstIndex(init + [p], prev[i]) == FirstIndex(init, prev[i])
  {
    forall i | 0 <= i < |prev| ensures FirstIndex(init + [p], prev[i]) == FirstIndex(init, prev[i]) {
      FirstIndexSnoc(init, p, prev[i]);
    }
  }

  /** A spec whose target was already seen keeps the first-seen order. */
  lemma TargetsOrderKept(init: seq<CashflowParam>, p: CashflowParam, prev: seq<string>)
    requires FirstSeenOrder(init, prev)
    ensures FirstSeenOrder(init + [p], prev)
  {
    FirstIndicesKept(init, p, prev);
  }

  /** A spec with a new target puts it last in the first-seen order. */
  lemma TargetsOrderExtended(init: seq<CashflowParam>, p: CashflowParam, prev: seq<string>)
    requires FirstSeenOrder(init, prev)
    requires FirstIndex(init, p.target) == |init|
    ensures FirstSeenOrder(init + [p], prev + [p.target])
  {
    var ps := init + [p];
    FirstIndicesKept(init, p, prev);
    FirstIndexSnoc(init, p, p.target);
    OrderExtended(ps, prev, p.target);
  }

  /** A target first seen after every listed one can be listed last. */
  lemma OrderExtended(ps: seq<CashflowParam>, prev: seq<string>, t: string)
    requires FirstIndex(ps, t) < |ps|
    requires forall i :: 0 <= i < |prev| ==> FirstIndex(ps, prev[i]) < FirstIndex(ps, t)
    requires forall i, j :: 0 <= i < j < |prev| ==> FirstIndex(ps, prev[i]) < FirstIndex(ps, prev[j])
    ensures FirstSeenOrder(ps, prev + [t])
  {
    var ts := prev + [t];
    forall i, j | 0 <= i < j < |ts| ensures FirstIndex(ps, ts[i]) < FirstIndex(ps, ts[j]) {
      assert ts[i] == prev[i];
      if j < |prev| { assert ts[j] == prev[j]; }
    }
  }

  /** The line items target `t` receives: those of its specs, in declared order. */
  function ItemsFor(ctx: Context, ps: seq<CashflowParam>, t: string): seq<LineItem> {
    if |ps| == 0 then []
    else
      var last := ps[|ps| - 1];
      ItemsFor(ctx, ps[..|ps| - 1], t) + (if last.target == t then Emitted(Contribute(ctx, last)) else [])
  }

  /** The error of the first spec that raises, if any. */
  function FirstRaise(ctx: Context, ps: seq<CashflowParam>): Option<CashflowError> {
    if |ps| == 0 then None
    else
      var prev := FirstRaise(ctx, ps[..|ps| - 1]);
      var c := Contribute(ctx, ps[|ps| - 1]);
      if prev.Some? then prev else if c.Raises? then Some(c.error) else None
  }

  /** Every target of the specs with its line items, before empty targets are dropped. */
  function Grouped(ctx: Context, ps: seq<CashflowParam>): (m: Accounts) {
    var ts := Targets(ps);
    seq(|ts|, k requires 0 <= k < |ts| => (ts[k], ItemsFor(ctx, ps, ts[k])))
  }

  /** The accounts a successful run produces: the grouped line items without empty targets. */
  function Expected(ctx: Context, ps: seq<CashflowParam>): Accounts {
    Prune(Grouped(ctx, ps))
  }

  /** One step of the builder's loop on the accumulated accounts. */
  function Step(m: Accounts, ctx: Context, p: CashflowParam): Accounts {
    var withKey := EnsureKey(m, p.target);
    match Contribute(ctx, p)
    case Emits(item) => Append(withKey, p.target, item)
    case _ => withKey
  }

  /** A target receives line items exactly when one of its specs emits one. */
  lemma {:induction false} ItemsForNonEmpty(ctx: Context, ps: seq<CashflowParam>, t: string)
    ensures |ItemsFor(ctx, ps, t)| > 0 <==>
      exists j :: 0 <= j < |ps| && ps[j].target == t && Contribute(ctx, ps[j]).Emits?
  {
    if |ItemsFor(ctx, ps, t)| > 0 {
      ItemsForWitness(ctx, ps, t);
    }
    if exists j :: 0 <= j < |ps| && ps[j].target == t && Contribute(ctx, ps[j]).Emits? {
      var j :| 0 <= j < |ps| && ps[j].target == t && Contribute(ctx, ps[j]).Emits?;
      WitnessItemsFor(ctx, ps, t, j);
    }
  }

  /** A target with a line item has a spec that emitted it. */
  lemma {:induction false} ItemsForWitness(ctx: Context, ps: seq<CashflowParam>, t: string)
    requires |ItemsFor(ctx, ps, t)| > 0
    ensures exists j :: 0 <= j < |ps| && ps[j].target == t && Contribute(ctx, ps[j]).Emits?
  {
    var init := ps[..|ps| - 1];
    if |ItemsFor(ctx, init, t)| > 0 {
      ItemsForWitness(ctx, init, t);
      var j :| 0 <= j < |init| && init[j].target == t && Contribute(ctx, init[j]).Emits?;
      assert ps[j] == init[j];
    } else {
      assert ps[|ps| - 1].target == t && Contribute(ctx, ps[|ps| - 1]).Emits?;
    }
  }

  /** A spec that emits gives its target a line item. */
  lemma {:induction false} WitnessItemsFor(ctx: Context, ps: seq<CashflowParam>, t: string, j: nat)
    requires j < |ps| && ps[j].target == t && Contribute(ctx, ps[j]).Emits?
    ensures |ItemsFor(ctx, ps, t)| > 0
  {
    var init := ps[..|ps| - 1];
    if j < |init| {
      assert init[j] == ps[j];
      WitnessItemsFor(ctx, init, t, j);
    }
  }


  /** `item` was emitted for target `t`: it has the name of one of `t`'s specs, the forecast's bounds and the output frequency. */
  predicate ItemOfTarget(ctx: Context, ps: seq<CashflowParam>, t: string, item: LineItem) {
    && (exists j :: 0 <= j < |ps| && ps[j].target == t && ps[j].name == item.name)
    && item.start == IndexMin(Index(ctx.forecast))
    && item.end == IndexMax(Index(ctx.forecast))
    && item.freq == ctx.freq
  }

  /** Every line item a target receives comes from one of its specs and carries that spec's name, the forecast's bounds and the output frequency. */
  lemma {:induction false} ItemsForHeaders(ctx: Context, ps: seq<CashflowParam>, t: string)
    ensures forall i :: 0 <= i < |ItemsFor(ctx, ps, t)| ==> ItemOfTarget(ctx, ps, t, ItemsFor(ctx, ps, t)[i])
  {
    if |ps| > 0 {
      var init := ps[..|ps| - 1];
      var last := ps[|ps| - 1];
      ItemsForHeaders(ctx, init, t);
      var prev := ItemsFor(ctx, init, t);
      var extra: seq<LineItem> := if last.target == t then Emitted(Contribute(ctx, last)) else [];
      assert ItemsFor(ctx, ps, t) == prev + extra;
      forall i | 0 <= i < |prev + extra|
        ensures ItemOfTarget(ctx, ps, t, (prev + extra)[i])
      {
        if i < |prev| {
          assert ItemOfTarget(ctx, init, t, prev[i]);
          var j :| 0 <= j < |init| && init[j].target == t && init[j].name == prev[i].name;
          assert ps[j] == init[j];
        } else {
          assert (prev + extra)[i] == extra[i - |prev|];
          assert ps[|ps| - 1].target == t && ps[|ps| - 1].name == extra[i - |prev|].name;
        }
      }
    }
  }

  lemma TargetsSnoc(ps: seq<CashflowParam>, p: CashflowParam)
    ensures Targets(ps + [p]) == if p.target in Targets(ps) then Targets(ps) else Targets(ps) + [p.target]
  {
    assert (ps + [p])[..|ps|] == ps;
  }

  lemma ItemsForSnoc(ctx: Context, ps: seq<CashflowParam>, p: CashflowParam, t: string)
    ensures ItemsFor(ctx, ps + [p], t) == ItemsFor(ctx, ps, t) + (if p.target == t then Emitted(Contribute(ctx, p)) else [])
  {
    assert (ps + [p])[..|ps|] == ps;
  }

  /** The entries after one loop step: the target is added if new, and the emitted item is appended to it. */
  lemma StepEntries(m: Accounts, ctx: Context, p: CashflowParam)
    ensures var r := Step(m, ctx, p);
      && |r| == (if p.target in Keys(m) then |m| else |m| + 1)
      && forall k :: 0 <= k < |r| ==>
           var key := if k < |m| then m[k].0 else p.target;
           var items := if k < |m| then m[k].1 else [];
           r[k] == (key, items + (if key == p.target then Emitted(Contribute(ctx, p)) else []))
  {
    var withKey := EnsureKey(m, p.target);
    var r := Step(m, ctx, p);
    forall k | 0 <= k < |r|
      ensures var key := if k < |m| then m[k].0 else p.target;
        var items := if k < |m| then m[k].1 else [];
        r[k] == (key, items + (if key == p.target then Emitted(Contribute(ctx, p)) else []))
    {
      var key := if k < |m| then m[k].0 else p.target;
      var items: seq<LineItem> := if k < |m| then m[k].1 else [];
      assert withKey[k] == (key, items);
      match Contribute(ctx, p) {
        case Emits(item) =>
          assert r == Append(withKey, p.target, item);
          assert r[k].0 == key;
          assert r[k].1 == if key == p.target then items + [item] else items;
        case Skipped =>
          assert r[k] == withKey[k];
          assert items + [] == items;
        case Raises(_) =>
          assert r[k] == withKey[k];
          assert items + [] == items;
      }
    }
  }

  /** Adding a spec extends each target's items by what the spec emits, and adds its target if it is new. */
  lemma GroupedStep(ctx: Context, ps: seq<CashflowParam>, p: CashflowParam)
    ensures Grouped(ctx, ps + [p]) == Step(Grouped(ctx, ps), ctx, p)
  {
    var g := Grouped(ctx, ps);
    assert Keys(g) == Targets(ps);
    TargetsSnoc(ps, p);
    StepEntries(g, ctx, p);
    var lhs, rhs := Grouped(ctx, ps + [p]), Step(g, ctx, p);
    assert |lhs| == |rhs|;
    forall k | 0 <= k < |lhs| ensures lhs[k] == rhs[k] {
      GroupedEntry(ctx, ps, p, k);
    }
  }

  /** `GroupedStep` at one position `k`. */
  lemma GroupedEntry(ctx: Context, ps: seq<CashflowParam>, p: CashflowParam, k: nat)
    requires k < |Targets(ps + [p])|
    ensures k < |Step(Grouped(ctx, ps), ctx, p)|
    ensures Grouped(ctx, ps + [p])[k] == Step(Grouped(ctx, ps), ctx, p)[k]
  {
    var ts := Targets(ps);
    var g := Grouped(ctx, ps);
    assert Keys(g) == ts;
    TargetsSnoc(ps, p);
    StepEntries(g, ctx, p);
    if p.target !in ts {
      ItemsForNonEmpty(ctx, ps, p.target);
    }
    ItemsForSnoc(ctx, ps, p, Targets(ps + [p])[k]);
  }

  /** Once a spec has raised, later specs do not change the error reported. */
  lemma {:induction false} FirstRaiseStable(ctx: Context, ps: seq<CashflowParam>, n: nat)
    requires n <= |ps| && FirstRaise(ctx, ps[..n]).Some?
    ensures FirstRaise(ctx, ps) == FirstRaise(ctx, ps[..n])
    decreases |ps| - n
  {
    if n < |ps| {
      var init := ps[..|ps| - 1];
      assert init[..n] == ps[..n];
      FirstRaiseStable(ctx, init, n);
    } else {
      assert ps[..n] == ps;
    }
  }

  /**
   * Builds the accounts of a period's cashflow model. With no forecast or no
   * parameter specs there is no model. Otherwise each spec in declared order
   * first makes sure its target exists, then appends the line item it emits
   * (a skipped spec appends nothing and an error aborts the run); finally
   * the targets without line items are dropped.
   */
  method GenerateCashflow(p: Period) returns (r: CashflowOutcome)
    ensures r.NoModel? <==> p.forecast.None? || p.cashflowParams.None?
    ensures p.forecast.Some? && p.cashflowParams.Some? ==>
      var ctx := ContextOf(p);
      var ps := p.cashflowParams.value;
      && (r.Raised? <==> FirstRaise(ctx, ps).Some?)
      && (r.Raised? ==> FirstRaise(ctx, ps) == Some(r.error))
      && (r.Built? ==> r.accounts == Expected(ctx, ps))
    ensures r.Built? ==> DistinctKeys(r.accounts) && forall i :: 0 <= i < |r.accounts| ==> |r.accounts[i].1| > 0
  {
    if p.forecast.None? || p.cashflowParams.None? {
      return NoModel;
    }
    var ctx := ContextOf(p);
    var ps := p.cashflowParams.value;
    var accounts: Accounts := [];
    var i := 0;
    while i < |ps|
      invariant 0 <= i <= |ps|
      invariant FirstRaise(ctx, ps[..i]).None?
      invariant accounts == Grouped(ctx, ps[..i])
    {
      var param := ps[i];
      LoopStep(ctx, ps, i);
      var next := Step(accounts, ctx, param);
      accounts := EnsureKey(accounts, param.target);
      match Contribute(ctx, param) {
        case Raises(e) =>
          return Raised(e);
        case Skipped =>
        case Emits(item) =>
          accounts := Append(accounts, param.target, item);
      }
      assert accounts == next;
      i := i + 1;
    }
    assert ps[..i] == ps;
    GroupedDistinct(ctx, ps);
    return Built(Prune(accounts));
  }

  /** Each target occurs once among the grouped accounts. */
  /** One pass of the builder's loop over the spec at position `i`, when none before it raised. */
  lemma LoopStep(ctx: Context, ps: seq<CashflowParam>, i: nat)
    requires i < |ps| && FirstRaise(ctx, ps[..i]).None?
    ensures Grouped(ctx, ps[..i + 1]) == Step(Grouped(ctx, ps[..i]), ctx, ps[i])
    ensures Contribute(ctx, ps[i]).Raises? ==> FirstRaise(ctx, ps) == Some(Contribute(ctx, ps[i]).error)
    ensures !Contribute(ctx, ps[i]).Raises? ==> FirstRaise(ctx, ps[..i + 1]).None?
  {
    assert ps[..i + 1] == ps[..i] + [ps[i]];
    GroupedStep(ctx, ps[..i], ps[i]);
    FirstRaiseStep(ctx, ps, i);
  }

  /** The first raise after the spec at position `i`, when none before it raised. */
  lemma FirstRaiseStep(ctx: Context, ps: seq<CashflowParam>, i: nat)
    requires i < |ps| && FirstRaise(ctx, ps[..i]).None?
    ensures Contribute(ctx, ps[i]).Raises? ==> FirstRaise(ctx, ps) == Some(Contribute(ctx, ps[i]).error)
    ensures !Contribute(ctx, ps[i]).Raises? ==> FirstRaise(ctx, ps[..i + 1]).None?
  {
    assert ps[..i + 1][..i] == ps[..i];
    if Contribute(ctx, ps[i]).Raises? {
      FirstRaiseStable(ctx, ps, i + 1);
    }
  }

  lemma GroupedDistinct(ctx: Context, ps: seq<CashflowParam>)
    ensures DistinctKeys(Grouped(ctx, ps))
  {
  }

  /**
   * The accounts produced: a target is present exactly when one of its specs
   * emits a line item, it holds the items of its specs in declared order,
   * and no target is empty or repeated (their order is `ExpectedFirstSeen`).
   */
  lemma ExpectedAccounts(ctx: Context, ps: seq<CashflowParam>, t: string)
    ensures t in Keys(Expected(ctx, ps)) <==>
      exists j :: 0 <= j < |ps| && ps[j].target == t && Contribute(ctx, ps[j]).Emits?
    ensures forall e :: e in Expected(ctx, ps) ==> e.1 == ItemsFor(ctx, ps, e.0) && |e.1| > 0
    ensures DistinctKeys(Expected(ctx, ps))
  {
    ExpectedKeys(ctx, ps, t);
    ExpectedItems(ctx, ps);
    GroupedDistinct(ctx, ps);
  }

  /** A target is among the accounts produced exactly when one of its specs emits a line item. */
  lemma ExpectedKeys(ctx: Context, ps: seq<CashflowParam>, t: string)
    ensures t in Keys(Expected(ctx, ps)) <==>
      exists j :: 0 <= j < |ps| && ps[j].target == t && Contribute(ctx, ps[j]).Emits?
  {
    ExpectedHas(ctx, ps, t);
    ItemsForNonEmpty(ctx, ps, t);
    if exists j :: 0 <= j < |ps| && ps[j].target == t && Contribute(ctx, ps[j]).Emits? {
      assert t in Targets(ps);
    }
  }

  /** A target survives the pruning exactly when it has at least one line item. */
  lemma ExpectedHas(ctx: Context, ps: seq<CashflowParam>, t: string)
    ensures t in Keys(Expected(ctx, ps)) <==> t in Targets(ps) && |ItemsFor(ctx, ps, t)| > 0
  {
    var g := Grouped(ctx, ps);
    var ts := Targets(ps);
    var m := Expected(ctx, ps);
    if t in Keys(m) {
      var i :| 0 <= i < |m| && m[i].0 == t;
      assert m[i] in g;
      var k :| 0 <= k < |g| && g[k] == m[i];
    }
    if t in ts && |ItemsFor(ctx, ps, t)| > 0 {
      var k :| 0 <= k < |ts| && ts[k] == t;
      assert g[k] in g;
      assert g[k] in m;
      var i :| 0 <= i < |m| && m[i] == g[k];
      assert Keys(m)[i] == t;
    }
  }


  /** Every account produced holds its specs' line items and is non-empty. */
  lemma ExpectedItems(ctx: Context, ps: seq<CashflowParam>)
    ensures forall e :: e in Expected(ctx, ps) ==> e.1 == ItemsFor(ctx, ps, e.0) && |e.1| > 0
  {
    var g := Grouped(ctx, ps);
    forall e | e in Expected(ctx, ps) ensures e.1 == ItemsFor(ctx, ps, e.0) && |e.1| > 0 {
      var k :| 0 <= k < |g| && g[k] == e;
    }
  }

  /** The accounts produced keep their targets in first-seen order. */
  lemma ExpectedFirstSeen(ctx: Context, ps: seq<CashflowParam>)
    ensures forall i, j :: 0 <= i < j < |Expected(ctx, ps)| ==>
      FirstIndex(ps, Expected(ctx, ps)[i].0) < FirstIndex(ps, Expected(ctx, ps)[j].0)
  {
    var g := Grouped(ctx, ps);
    TargetsFirstSeen(ps);
    var rank := (t: string) => FirstIndex(ps, t);
    assert RankedKeys(g, rank);
    PruneKeepsOrder(g, rank);
    var m := Expected(ctx, ps);
    assert forall i, j :: 0 <= i < j < |m| ==> rank(m[i].0) < rank(m[j].0);
  }

  /**
   * A spec whose multiply column is missing adds no line item anywhere, yet
   * its target is still created among the grouped accounts.
   */
  lemma MissingColumnAddsNothing(ctx: Context, ps: seq<CashflowParam>, p: CashflowParam)
    requires !Unformattable(ctx)
    requires MultiplyColumn(p).Some? && MultiplyColumn(p).value !in ctx.forecast.columns
    ensures forall t :: ItemsFor(ctx, ps + [p], t) == ItemsFor(ctx, ps, t)
    ensures p.target in Keys(Grouped(ctx, ps + [p]))
    ensures FirstRaise(ctx, ps + [p]) == FirstRaise(ctx, ps)
  {
    var qs := ps + [p];
    assert qs[..|qs| - 1] == ps;
    assert Contribute(ctx, p).Skipped?;
    assert p.target in Targets(qs) by { assert qs[|qs| - 1].target == p.target; }
    assert Keys(Grouped(ctx, qs)) == Targets(qs);
  }
}

=== FILE: cashflow_input.dfy ===
/**
 * The shapes of the cashflow parameter specs a period carries and of the
 * line items it produces from them (the `CashFlowInput` and `CashFlowModel`
 * inputs; their own module, cashflow.py, is not part of this model).
 */
module CashflowInput {
  import opened Optional
  import opened Times

  /** A sparse change-point series: dates and the values that take effect at them. */
  datatype ChgPts = ChgPts(dates: seq<Time>, values: seq<real>)

  /**
   * One declarative cashflow parameter: the line item's name, the account it
   * is booked to, an optional forecast column to multiply against, an optional
   * constant, optional dated values to multiply against, and a change-point
   * series used as is when nothing is multiplied.
   */
  datatype CashflowParam = CashflowParam(
    name: string,
    target: string,
    multiply: Option<string>,
    constValue: Option<real>,
    arrayValues: Option<ChgPts>,
    chgpts: Option<ChgPts>)

  /** A line item's constant: a scalar copied from the spec, or one value per forecast row. */
  datatype ConstValue = Scalar(x: real) | Series(xs: seq<real>)

  /**
   * One line item handed to the cashflow model: name, the forecast's first and
   * last index value, frequency, and its constant and change points if any.
   */
  datatype LineItem = LineItem(
    name: string,
    start: Option<Time>,
    end: Option<Time>,
    freq: Freq,
    constValue: Option<ConstValue>,
    chgpts: Option<ChgPts>)
}

=== FILE: findings.dfy ===
/**
 * Two places where the cashflow builder as written does not do what it
 * evidently means to, each modelled as written next to the corrected
 * behaviour the rest of the model uses.
 */
module Findings {
  import opened Optional
  import opened Times
  import opened Frames
  import opened CashflowInput
  import opened LineItems
  import opened OrderedLists
  import opened Cashflow

  /**
   * Pruning as written (a dict entry deleted while the dict is iterated)
   * raises whenever a spec's target received no line item, for instance when
   * its only spec names a missing column; the corrected pruning drops that
   * target instead.
   */
  lemma {:induction false} EmptyTargetAsWrittenRaises(ctx: Context, ps: seq<CashflowParam>, j: int)
    requires 0 <= j < |ps|
    requires forall i :: 0 <= i < |ps| && ps[i].target == ps[j].target ==> !Contribute(ctx, ps[i]).Emits?
    ensures PruneAsWritten(Grouped(ctx, ps)).Err?
    ensures ps[j].target !in Keys(Expected(ctx, ps))
  {
    var t := ps[j].target;
    var g := Grouped(ctx, ps);
    ItemsForNonEmpty(ctx, ps, t);
    assert t in Targets(ps);
    var k :| 0 <= k < |Targets(ps)| && Targets(ps)[k] == t;
    assert |g[k].1| == 0;
    ExpectedAccounts(ctx, ps, t);
  }

  /** A concrete run: one spec multiplying a column the forecast lacks. */
  lemma MissingColumnAsWrittenRaises()
    ensures
      var ctx := Context(Table({"oil"}, []), false, Monthly);
      var ps := [CashflowParam("royalty", "capex", Some("gas"), Some(1.0), None, None)];
      && Grouped(ctx, ps) == [("capex", [])]
      && PruneAsWritten(Grouped(ctx, ps)).Err?
      && Expected(ctx, ps) == []
  {
    var ctx := Context(Table({"oil"}, []), false, Monthly);
    var ps := [CashflowParam("royalty", "capex", Some("gas"), Some(1.0), None, None)];
    MissingColumnGrouped();
    var g: Accounts := [("capex", [])];
    assert |g[0].1| == 0;
    assert g[1..] == [];
    assert Prune(g) == Prune(g[1..]);
  }

  /** The grouping of that run: the target with no line items. */
  lemma MissingColumnGrouped()
    ensures
      var ctx := Context(Table({"oil"}, []), false, Monthly);
      Grouped(ctx, [CashflowParam("royalty", "capex", Some("gas"), Some(1.0), None, None)]) == [("capex", [])]
  {
    var ctx := Context(Table({"oil"}, []), false, Monthly);
    var p := CashflowParam("royalty", "capex", Some("gas"), Some(1.0), None, None);
    var ps := [p];
    assert ps == [] + [p];
    assert Contribute(ctx, p).Skipped?;
    TargetsSnoc([], p);
    ItemsForSnoc(ctx, [], p, "capex");
    var g := Grouped(ctx, ps);
    assert |g| == 1 && g[0] == ("capex", []);
  }

  /** Formatting an index as dates: an ordinal index has no `strftime`. */
  datatype FormatError = NoStrftime

  /**
   * The change-point dates as written: the aligned index is always formatted
   * as dates, which fails on an ordinal index. Date formatting itself is not
   * modelled, so a date index passes through unchanged.
   */
  function ChgPtsDatesAsWritten(ctx: Context, dates: seq<Time>): (r: Result<seq<Time>, FormatError>)
    ensures r.Ok? <==> ctx.dateMode
    ensures r.Ok? ==> r.value == dates
  {
    if ctx.dateMode then Ok(dates) else Err(NoStrftime)
  }

  /**
   * A concrete ordinal run: one forecast row at step 0 with oil 2.0 and a spec
   * with value 3.0 at step 0. The corrected builder sets the change point
   * (step 0, 6.0); as written, formatting its date fails.
   */
  lemma OrdinalChgPtsAsWrittenFail()
    ensures
      var f: Frame := Table({"oil"}, [Row(Ordinal(0), map["oil" := Num(2.0)])]);
      var ctx := Context(f, false, Monthly);
      var av := ChgPts([Ordinal(0)], [3.0]);
      && AlignedChgPts(ctx, "oil", av) == Some(ChgPts([Ordinal(0)], [6.0]))
      && ChgPtsDatesAsWritten(ctx, AlignedChgPts(ctx, "oil", av).value.dates).Err?
  {
    var f: Frame := Table({"oil"}, [Row(Ordinal(0), map["oil" := Num(2.0)])]);
    var ctx := Context(f, false, Monthly);
    var av := ChgPts([Ordinal(0)], [3.0]);
    var fc := Numbers(f, "oil");
    var sp := SpecSeries(ctx, av);
    assert fc == [(Ordinal(0), 2.0)];
    assert sp == [(Ordinal(0), 3.0)];
    assert Keys(fc) == [Ordinal(0)] == Keys(sp);
    var a := Align(fc, sp);
    assert |a| == 1 && a[0].0 == Ordinal(0) && a[0].1 == 6.0;
    assert a == [(Ordinal(0), 6.0)];
    assert Keys(a) == [Ordinal(0)];
    assert ValuesOf(a) == [6.0];
    assert AlignedChgPts(ctx, "oil", av) == ChgPtsOf(a);
  }

  /**
   * On a date index the discrepancy does not arise: whenever the corrected
   * builder sets change points, formatting their dates as written keeps them.
   */
  lemma DateChgPtsAsWrittenAgree(ctx: Context, col: string, av: ChgPts)
    requires ctx.dateMode
    requires col in ctx.forecast.columns && NumericColumn(ctx.forecast, col)
    requires |av.dates| == |av.values|
    ensures var c := AlignedChgPts(ctx, col, av);
      c.Some? ==> ChgPtsDatesAsWritten(ctx, c.value.dates) == Ok(c.value.dates)
  {
  }
}

=== FILE: frames.dfy ===
/**
 * Time-indexed tables (the pandas DataFrames a curve model returns) and the
 * column operations the cashflow builder applies to them.
 */
module Frames {
  import opened Times
  import opened OrderedLists

  /** A cell: a number (rate, cumulative, iteration index) or text (the period name). */
  datatype Value = Num(x: real) | Text(s: string)

  /** One row: its index value and its cells by column name. */
  datatype Row = Row(time: Time, cells: map<string, Value>)

  /** A table: its column names and its rows in index order. */
  datatype Table = Table(columns: set<string>, rows: seq<Row>)

  /** Every row holds exactly the table's columns. */
  predicate Rectangular(t: Table) {
    forall i :: 0 <= i < |t.rows| ==> t.rows[i].cells.Keys == t.columns
  }

  /** A rectangular table, as every DataFrame is. */
  type Frame = t: Table | Rectangular(t) witness Table({}, [])

  /** The column the period name is written to. */
  const PeriodColumn: string := "period"

  /** The index of a table, in row order. */
  function Index(t: Table): (r: seq<Time>)
    ensures |r| == |t.rows|
    ensures forall i :: 0 <= i < |r| ==> r[i] == t.rows[i].time
  {
    seq(|t.rows|, i requires 0 <= i < |t.rows| => t.rows[i].time)
  }

  /** Writes `name` into the period column of every row. */
  function StampRows(rows: seq<Row>, name: string): (r: seq<Row>)
    ensures |r| == |rows|
    ensures forall i :: 0 <= i < |r| ==>
      && r[i].time == rows[i].time
      && r[i].cells.Keys == rows[i].cells.Keys + {PeriodColumn}
      && r[i].cells[PeriodColumn] == Text(name)
      && (forall c :: c in rows[i].cells && c != PeriodColumn ==> r[i].cells[c] == rows[i].cells[c])
  {
    if |rows| == 0 then []
    else
      var row := rows[0];
      [Row(row.time, row.cells[PeriodColumn := Text(name)])] + StampRows(rows[1..], name)
  }

  /**
   * `frame['period'] = name`: the column is added (or overwritten) with the same
   * text on every row; the index and every other column are unchanged.
   */
  function StampPeriod(t: Frame, name: string): (r: Frame)
    ensures r.columns == t.columns + {PeriodColumn}
    ensures Index(r) == Index(t)
    ensures forall i :: 0 <= i < |r.rows| ==> r.rows[i].cells[PeriodColumn] == Text(name)
    ensures forall i, c :: 0 <= i < |r.rows| && c in t.columns && c != PeriodColumn ==>
      r.rows[i].cells[c] == t.rows[i].cells[c]
  {
    Table(t.columns + {PeriodColumn}, StampRows(t.rows, name))
  }

  /** Every cell of column `c` is a number, so the column can be multiplied by a number. */
  predicate NumericColumn(t: Frame, c: string)
    requires c in t.columns
  {
    forall i :: 0 <= i < |t.rows| ==> t.rows[i].cells[c].Num?
  }

  /** Column `c` as a series: each row's index value paired with its number. */
  function Numbers(t: Frame, c: string): (r: seq<(Time, real)>)
    requires c in t.columns && NumericColumn(t, c)
    ensures |r| == |t.rows|
    ensures forall i :: 0 <= i < |r| ==> r[i] == (t.rows[i].time, t.rows[i].cells[c].x)
  {
    seq(|t.rows|, i requires 0 <= i < |t.rows| => (t.rows[i].time, t.rows[i].cells[c].x))
  }

  /** The values of a series, in order (`Series.tolist()`). */
  function ValuesOf(s: seq<(Time, real)>): (r: seq<real>)
    ensures |r| == |s|
    ensures forall i :: 0 <= i < |r| ==> r[i] == s[i].1
  {
    seq(|s|, i requires 0 <= i < |s| => s[i].1)
  }

  /** Index value `t` occurs in series `s`. */
  predicate Has(s: seq<(Time, real)>, t: Time) {
    exists i :: 0 <= i < |s| && s[i].0 == t
  }

  lemma HasCons(s: seq<(Time, real)>, t: Time)
    requires |s| > 0
    ensures Has(s, t) <==> s[0].0 == t || Has(s[1..], t)
  {
    if Has(s, t) && s[0].0 != t {
      var i :| 0 <= i < |s| && s[i].0 == t;
      assert s[1..][i - 1].0 == t;
    }
    if Has(s[1..], t) {
      var i :| 0 <= i < |s[1..]| && s[1..][i].0 == t;
      assert s[i + 1].0 == t;
    }
  }

  lemma HasConcat(a: seq<(Time, real)>, b: seq<(Time, real)>, t: Time)
    ensures Has(a + b, t) <==> Has(a, t) || Has(b, t)
  {
    if Has(a + b, t) {
      var i :| 0 <= i < |a + b| && (a + b)[i].0 == t;
      if i >= |a| { assert b[i - |a|].0 == t; }
    }
    if Has(a, t) {
      var i :| 0 <= i < |a| && a[i].0 == t;
      assert (a + b)[i].0 == t;
    }
    if Has(b, t) {
      var i :| 0 <= i < |b| && b[i].0 == t;
      assert (a + b)[|a| + i].0 == t;
    }
  }

  /** `series.multiply(k).tolist()`: every value scaled by `k`, one per row. */
  function Scale(s: seq<(Time, real)>, k: real): (r: seq<real>)
    ensures |r| == |s|
    ensures forall i :: 0 <= i < |r| ==> r[i] == s[i].1 * k
  {
    seq(|s|, i requires 0 <= i < |s| => s[i].1 * k)
  }

  /** The entries of `spec` at index value `t`, each value multiplied by `x`. */
  function Matches(t: Time, x: real, spec: seq<(Time, real)>): (r: seq<(Time, real)>)
    ensures forall i :: 0 <= i < |r| ==> r[i].0 == t
  {
    if |spec| == 0 then []
    else Hit(t, x, spec[0].0, spec[0].1) + Matches(t, x, spec[1..])
  }

  /** The product of an entry `(t, x)` with an entry `(k, y)`, present only when the two index values agree. */
  function Hit(t: Time, x: real, k: Time, y: real): (r: seq<(Time, real)>)
    ensures |r| == if k == t then 1 else 0
    ensures k == t ==> r[0].0 == t && r[0].1 == x * y
  {
    if k == t then [(t, x * y)] else []
  }

  /** `v` is `x` times a spec value at index value `t`. */
  predicate SpecProduct(t: Time, x: real, spec: seq<(Time, real)>, v: real) {
    exists k :: 0 <= k < |spec| && spec[k].0 == t && v == x * spec[k].1
  }

  lemma SpecProductTail(t: Time, x: real, spec: seq<(Time, real)>, v: real)
    requires |spec| > 0 && SpecProduct(t, x, spec[1..], v)
    ensures SpecProduct(t, x, spec, v)
  {
    var k :| 0 <= k < |spec[1..]| && spec[1..][k].0 == t && v == x * spec[1..][k].1;
    assert spec[k + 1] == spec[1..][k];
  }

  /** A forecast entry finds no match exactly when the spec lacks its index value. */
  lemma {:induction false} MatchesEmpty(t: Time, x: real, spec: seq<(Time, real)>)
    ensures |Matches(t, x, spec)| == 0 <==> !Has(spec, t)
  {
    if |spec| > 0 {
      MatchesEmpty(t, x, spec[1..]);
      HasCons(spec, t);
    }
  }

  /** Each match is the entry's value times a spec value at the entry's index value. */
  lemma {:induction false} MatchesValues(t: Time, x: real, spec: seq<(Time, real)>)
    ensures forall i :: 0 <= i < |Matches(t, x, spec)| ==> SpecProduct(t, x, spec, Matches(t, x, spec)[i].1)
  {
    if |spec| > 0 {
      var rest := Matches(t, x, spec[1..]);
      MatchesValues(t, x, spec[1..]);
      var r := Matches(t, x, spec);
      if spec[0].0 == t {
        assert r == [(t, x * spec[0].1)] + rest;
        forall i | 0 <= i < |r| ensures SpecProduct(t, x, spec, r[i].1) {
          if i == 0 {
            assert spec[0].0 == t && r[0].1 == x * spec[0].1;
          } else {
            assert r[i] == rest[i - 1];
            SpecProductTail(t, x, spec, rest[i - 1].1);
          }
        }
      } else {
        assert r == rest;
        forall i | 0 <= i < |r| ensures SpecProduct(t, x, spec, r[i].1) {
          SpecProductTail(t, x, spec, rest[i].1);
        }
      }
    }
  }

  /** The index of `Matches` on a non-empty spec: the first entry's hit, then the rest. */
  lemma MatchesKeysStep(t: Time, x: real, spec: seq<(Time, real)>)
    requires |spec| > 0
    ensures Keys(spec) == [spec[0].0] + Keys(spec[1..])
    ensures Keys(Matches(t, x, spec)) == Keys(Hit(t, x, spec[0].0, spec[0].1)) + Keys(Matches(t, x, spec[1..]))
    ensures Keys(Hit(t, x, spec[0].0, spec[0].1)) == if spec[0].0 == t then [t] else []
  {
    var h, rest := Hit(t, x, spec[0].0, spec[0].1), Matches(t, x, spec[1..]);
    KeysCons(spec);
    KeysConcat(h, rest);
    HitKeys(t, x, spec[0].0, spec[0].1);
  }

  /** The index of a non-empty series is its first index value followed by the index of the rest. */
  lemma KeysCons(m: seq<(Time, real)>)
    requires |m| > 0
    ensures Keys(m) == [m[0].0] + Keys(m[1..])
  {
    var a, b := Keys(m), [m[0].0] + Keys(m[1..]);
    forall i | 0 <= i < |a|
      ensures a[i] == b[i]
    {
      if i > 0 {
        assert b[i] == Keys(m[1..])[i - 1] == m[1..][i - 1].0;
      }
    }
  }

  /** The index of two series placed one after the other. */
  lemma KeysConcat(a: seq<(Time, real)>, b: seq<(Time, real)>)
    ensures Keys(a + b) == Keys(a) + Keys(b)
  {
    var l, r := Keys(a + b), Keys(a) + Keys(b);
    forall i | 0 <= i < |l|
      ensures l[i] == r[i]
    {
      if i >= |a| {
        assert r[i] == Keys(b)[i - |a|];
      }
    }
  }

  /** A hit carries the index value `t` exactly when the two index values agree. */
  lemma HitKeys(t: Time, x: real, k: Time, y: real)
    ensures Keys(Hit(t, x, k, y)) == if k == t then [t] else []
  {
  }

  /** The count step of `MatchesCount`, on the index sequences alone. */
  lemma CountSplit(km: seq<Time>, kh: seq<Time>, kr: seq<Time>, ks: seq<Time>, k: Time, t: Time, u: Time)
    requires km == kh + kr
    requires kh == if k == t then [t] else []
    requires multiset(kr)[u] == if u == t then multiset(ks)[u] else 0
    ensures multiset(km)[u] == if u == t then multiset([k] + ks)[u] else 0
  {
    assert multiset(km) == multiset(kh) + multiset(kr);
    assert multiset([k] + ks) == multiset([k]) + multiset(ks);
  }

  /**
   * Aligning two series whose indexes differ: an outer join on the index
   * followed by `dropna`, which keeps the positions present in both. On a
   * non-unique index the join pairs every forecast entry with every spec entry
   * at the same index value, so a value occurring `a` times in the forecast and
   * `b` times in the spec occurs `a * b` times in the result. Matches are
   * produced in the forecast's row order.
   */
  function Join(forecast: seq<(Time, real)>, spec: seq<(Time, real)>): (r: seq<(Time, real)>)
    ensures forall u :: multiset(Keys(r))[u] == multiset(Keys(forecast))[u] * multiset(Keys(spec))[u]
  {
    if |forecast| == 0 then []
    else
      var m := Matches(forecast[0].0, forecast[0].1, spec);
      var rest := Join(forecast[1..], spec);
      JoinCountStep(forecast, spec, rest);
      m + rest
  }

  /** Each spec entry at `t` yields one match; entries at other index values yield none. */
  lemma {:induction false} MatchesCount(t: Time, x: real, spec: seq<(Time, real)>, u: Time)
    ensures multiset(Keys(Matches(t, x, spec)))[u] == if u == t then multiset(Keys(spec))[u] else 0
  {
    if |spec| > 0 {
      MatchesCount(t, x, spec[1..], u);
      MatchesKeysStep(t, x, spec);
      var h := Hit(t, x, spec[0].0, spec[0].1);
      CountSplit(Keys(Matches(t, x, spec)), Keys(h), Keys(Matches(t, x, spec[1..])), Keys(spec[1..]), spec[0].0, t, u);
    }
  }


  /**
   * The count of an index value after aligning the first forecast entry, given
   * the count for the remaining entries: one match per pair of a forecast
   * entry and a spec entry at that value.
   */
  lemma JoinCountStep(forecast: seq<(Time, real)>, spec: seq<(Time, real)>, rest: seq<(Time, real)>)
    requires |forecast| > 0
    requires forall u :: multiset(Keys(rest))[u] == multiset(Keys(forecast[1..]))[u] * multiset(Keys(spec))[u]
    ensures var r := Matches(forecast[0].0, forecast[0].1, spec) + rest;
      forall u :: multiset(Keys(r))[u] == multiset(Keys(forecast))[u] * multiset(Keys(spec))[u]
  {
    forall u {
      JoinCountAt(forecast, spec, rest, u);
    }
  }

  /** `JoinCountStep` at one index value `u`. */
  lemma JoinCountAt(forecast: seq<(Time, real)>, spec: seq<(Time, real)>, rest: seq<(Time, real)>, u: Time)
    requires |forecast| > 0
    requires multiset(Keys(rest))[u] == multiset(Keys(forecast[1..]))[u] * multiset(Keys(spec))[u]
    ensures multiset(Keys(Matches(forecast[0].0, forecast[0].1, spec) + rest))[u] == multiset(Keys(forecast))[u] * multiset(Keys(spec))[u]
  {
    var t, kf := forecast[0].0, Keys(forecast[1..]);
    var m := Matches(t, forecast[0].1, spec);
    assert Keys(forecast) == [t] + kf;
    assert Keys(m + rest) == Keys(m) + Keys(rest);
    MatchesCount(t, forecast[0].1, spec, u);
    PairsOfOneMore(multiset(Keys(m + rest))[u], multiset(Keys(m))[u], multiset(kf)[u], multiset(Keys(forecast))[u], multiset(Keys(spec))[u]);
  }

  /** Adding one forecast entry adds one pair per spec entry at its index value, and none elsewhere. */
  lemma PairsOfOneMore(total: nat, cm: nat, cf: nat, cfNew: nat, cs: nat)
    requires total == cm + cf * cs
    requires (cfNew == cf + 1 && cm == cs) || (cfNew == cf && cm == 0)
    ensures total == cfNew * cs
  {
    if cfNew == cf + 1 {
      assert (cf + 1) * cs == cf * cs + cs;
    }
  }

  /** The joined index holds exactly the index values the two series share. */
  lemma {:induction false} JoinKeys(forecast: seq<(Time, real)>, spec: seq<(Time, real)>, t: Time)
    ensures Has(Join(forecast, spec), t) <==> Has(forecast, t) && Has(spec, t)
  {
    if |forecast| > 0 {
      var m := Matches(forecast[0].0, forecast[0].1, spec);
      JoinKeys(forecast[1..], spec, t);
      HasCons(forecast, t);
      HasConcat(m, Join(forecast[1..], spec), t);
      MatchesEmpty(forecast[0].0, forecast[0].1, spec);
      if Has(m, t) {
        var i :| 0 <= i < |m| && m[i].0 == t;
      }
      if forecast[0].0 == t && Has(spec, t) {
        assert m[0].0 == t;
      }
    }
  }

  /** `e` is a forecast value at `e`'s index value multiplied by a spec value at the same index value. */
  predicate MatchedProduct(forecast: seq<(Time, real)>, spec: seq<(Time, real)>, e: (Time, real)) {
    exists j, k :: 0 <= j < |forecast| && 0 <= k < |spec| &&
      forecast[j].0 == e.0 && spec[k].0 == e.0 && e.1 == forecast[j].1 * spec[k].1
  }

  lemma MatchedProductTail(forecast: seq<(Time, real)>, spec: seq<(Time, real)>, e: (Time, real))
    requires |forecast| > 0 && MatchedProduct(forecast[1..], spec, e)
    ensures MatchedProduct(forecast, spec, e)
  {
    var j, k :| 0 <= j < |forecast[1..]| && 0 <= k < |spec| &&
      forecast[1..][j].0 == e.0 && spec[k].0 == e.0 && e.1 == forecast[1..][j].1 * spec[k].1;
    assert forecast[j + 1] == forecast[1..][j];
  }

  lemma MatchedProductHead(forecast: seq<(Time, real)>, spec: seq<(Time, real)>, e: (Time, real))
    requires |forecast| > 0 && e.0 == forecast[0].0
    requires SpecProduct(forecast[0].0, forecast[0].1, spec, e.1)
    ensures MatchedProduct(forecast, spec, e)
  {
    var k :| 0 <= k < |spec| && spec[k].0 == forecast[0].0 && e.1 == forecast[0].1 * spec[k].1;
    assert forecast[0].0 == e.0 && spec[k].0 == e.0 && e.1 == forecast[0].1 * spec[k].1;
  }

  /** Every joined value is the product of a forecast value and a spec value sharing its index value. */
  lemma {:induction false} JoinValues(forecast: seq<(Time, real)>, spec: seq<(Time, real)>)
    ensures forall i :: 0 <= i < |Join(forecast, spec)| ==> MatchedProduct(forecast, spec, Join(forecast, spec)[i])
  {
    if |forecast| > 0 {
      var m := Matches(forecast[0].0, forecast[0].1, spec);
      var rest := Join(forecast[1..], spec);
      JoinValues(forecast[1..], spec);
      MatchesValues(forecast[0].0, forecast[0].1, spec);
      var r := Join(forecast, spec);
      assert r == m + rest;
      forall i | 0 <= i < |r|
        ensures MatchedProduct(forecast, spec, r[i])
      {
        if i < |m| {
          assert r[i] == m[i];
          MatchedProductHead(forecast, spec, m[i]);
        } else {
          assert r[i] == rest[i - |m|];
          MatchedProductTail(forecast, spec, rest[i - |m|]);
        }
      }
    }
  }

  /** The products of one spec entry `(k, y)` with every forecast entry at index value `k`, in forecast order. */
  function Hits(forecast: seq<(Time, real)>, k: Time, y: real): seq<(Time, real)> {
    if |forecast| == 0 then []
    else Hit(k, forecast[0].1, forecast[0].0, y) + Hits(forecast[1..], k, y)
  }

  /**
   * Reference for the join, enumerated spec-first: for each spec entry in
   * order, its product with each forecast entry at the same index value.
   */
  function PairProducts(forecast: seq<(Time, real)>, spec: seq<(Time, real)>): seq<(Time, real)> {
    if |spec| == 0 then []
    else Hits(forecast, spec[0].0, spec[0].1) + PairProducts(forecast, spec[1..])
  }

  /** Matching against a concatenated spec matches each part in turn. */
  lemma {:induction false} MatchesConcat(t: Time, x: real, a: seq<(Time, real)>, b: seq<(Time, real)>)
    ensures Matches(t, x, a + b) == Matches(t, x, a) + Matches(t, x, b)
  {
    if |a| == 0 {
      assert a + b == b;
    } else {
      var h := Hit(t, x, a[0].0, a[0].1);
      assert (a + b)[0] == a[0];
      assert (a + b)[1..] == a[1..] + b;
      MatchesConcat(t, x, a[1..], b);
      assert Matches(t, x, a + b) == h + Matches(t, x, a[1..] + b);
      assert h + (Matches(t, x, a[1..]) + Matches(t, x, b)) == (h + Matches(t, x, a[1..])) + Matches(t, x, b);
    }
  }

  /** Joining against a concatenated spec gives the entries of joining each part, in some order. */
  lemma {:induction false} JoinConcatSpec(forecast: seq<(Time, real)>, a: seq<(Time, real)>, b: seq<(Time, real)>)
    ensures multiset(Join(forecast, a + b)) == multiset(Join(forecast, a)) + multiset(Join(forecast, b))
  {
    if |forecast| > 0 {
      var t, x := forecast[0].0, forecast[0].1;
      MatchesConcat(t, x, a, b);
      JoinConcatSpec(forecast[1..], a, b);
      assert Join(forecast, a + b) == Matches(t, x, a) + Matches(t, x, b) + Join(forecast[1..], a + b);
      assert Join(forecast, a) == Matches(t, x, a) + Join(forecast[1..], a);
      assert Join(forecast, b) == Matches(t, x, b) + Join(forecast[1..], b);
    }
  }

  /** Joining against a single spec entry `(k, y)` gives that entry's products, in forecast order. */
  lemma {:induction false} JoinSingle(forecast: seq<(Time, real)>, k: Time, y: real)
    ensures Join(forecast, [(k, y)]) == Hits(forecast, k, y)
  {
    if |forecast| > 0 {
      JoinSingle(forecast[1..], k, y);
      var t, x := forecast[0].0, forecast[0].1;
      var e := [(k, y)];
      assert e[0] == (k, y) && e[1..] == [];
      assert Matches(t, x, e) == Hit(t, x, k, y) + Matches(t, x, []);
      assert Join(forecast, e) == Matches(t, x, e) + Join(forecast[1..], e);
      if t != k {
        assert Hit(t, x, k, y) == [] == Hit(k, x, t, y);
      }
    }
  }

  /** The join holds exactly the products of the matched pairs, each once: the spec-first enumeration up to order. */
  lemma {:induction false} JoinPairs(forecast: seq<(Time, real)>, spec: seq<(Time, real)>)
    ensures multiset(Join(forecast, spec)) == multiset(PairProducts(forecast, spec))
  {
    if |spec| == 0 {
      JoinEmptySpec(forecast);
    } else {
      assert spec == [spec[0]] + spec[1..];
      JoinConcatSpec(forecast, [spec[0]], spec[1..]);
      JoinSingle(forecast, spec[0].0, spec[0].1);
      JoinPairs(forecast, spec[1..]);
    }
  }

  /** Nothing joins against an empty spec. */
  lemma {:induction false} JoinEmptySpec(forecast: seq<(Time, real)>)
    ensures Join(forecast, []) == []
  {
    if |forecast| > 0 {
      JoinEmptySpec(forecast[1..]);
    }
  }

  /**
   * `forecast.multiply(spec).dropna()`. Two series with equal indexes are
   * multiplied position by position; otherwise they are joined on the index
   * (`Join`), which pairs every forecast entry with every spec entry at the
   * same index value.
   */
  function Align(forecast: seq<(Time, real)>, spec: seq<(Time, real)>): (r: seq<(Time, real)>)
    ensures Keys(forecast) == Keys(spec) ==>
      |r| == |forecast| && forall i :: 0 <= i < |r| ==> r[i].0 == forecast[i].0 && r[i].1 == forecast[i].1 * spec[i].1
    ensures Keys(forecast) != Keys(spec) ==>
      forall u :: multiset(Keys(r))[u] == multiset(Keys(forecast))[u] * multiset(Keys(spec))[u]
  {
    if Keys(forecast) == Keys(spec) then
      assert |spec| == |Keys(spec)| == |forecast|;
      seq(|forecast|, i requires 0 <= i < |forecast| => (forecast[i].0, forecast[i].1 * spec[i].1))
    else
      Join(forecast, spec)
  }

  /**
   * When the indexes differ, the aligned series holds exactly the products of
   * the matched pairs, each once: the spec-first enumeration up to order.
   */
  lemma AlignPairs(forecast: seq<(Time, real)>, spec: seq<(Time, real)>)
    ensures Keys(forecast) != Keys(spec) ==> multiset(Align(forecast, spec)) == multiset(PairProducts(forecast, spec))
  {
    if Keys(forecast) != Keys(spec) {
      JoinPairs(forecast, spec);
    }
  }

  /**
   * How often each index value occurs after alignment: as often as in the
   * forecast when the indexes are equal, and otherwise once per matched pair.
   */
  lemma AlignCount(forecast: seq<(Time, real)>, spec: seq<(Time, real)>, u: Time)
    ensures multiset(Keys(Align(forecast, spec)))[u] ==
      if Keys(forecast) == Keys(spec) then multiset(Keys(forecast))[u]
      else multiset(Keys(forecast))[u] * multiset(Keys(spec))[u]
  {
    if Keys(forecast) == Keys(spec) {
      assert Keys(Align(forecast, spec)) == Keys(forecast);
    }
  }

  /** The aligned index holds exactly the index values the two series share. */
  lemma AlignKeys(forecast: seq<(Time, real)>, spec: seq<(Time, real)>, t: Time)
    ensures Has(Align(forecast, spec), t) <==> Has(forecast, t) && Has(spec, t)
  {
    if Keys(forecast) == Keys(spec) {
      var r := Align(forecast, spec);
      if Has(forecast, t) {
        var i :| 0 <= i < |forecast| && forecast[i].0 == t;
        assert Keys(spec)[i] == t && r[i].0 == t;
      }
      if Has(r, t) {
        var i :| 0 <= i < |r| && r[i].0 == t;
        assert forecast[i].0 == t && Keys(spec)[i] == t;
      }
    } else {
      JoinKeys(forecast, spec, t);
    }
  }

  /** Every aligned value is the product of a forecast value and a spec value sharing its index value. */
  lemma AlignValues(forecast: seq<(Time, real)>, spec: seq<(Time, real)>)
    ensures forall i :: 0 <= i < |Align(forecast, spec)| ==> MatchedProduct(forecast, spec, Align(forecast, spec)[i])
  {
    var r := Align(forecast, spec);
    if Keys(forecast) == Keys(spec) {
      forall i | 0 <= i < |r| ensures MatchedProduct(forecast, spec, r[i]) {
        assert Keys(spec)[i] == forecast[i].0;
        assert forecast[i].0 == r[i].0 && spec[i].0 == r[i].0 && r[i].1 == forecast[i].1 * spec[i].1;
      }
    } else {
      JoinValues(forecast, spec);
    }
  }
}

=== FILE: line_items.dfy ===
/**
 * What one cashflow parameter contributes when a period builds its cashflow:
 * a line item, nothing (its multiply column is missing), or an error.
 */
module LineItems {
  import opened Optional
  import opened Times
  import opened Frames
  import opened CashflowInput
  import opened OrderedLists

  /** What the builder reads from the period: its forecast, whether it runs on dates, and its output frequency. */
  datatype Context = Context(forecast: Frame, dateMode: bool, freq: Freq)

  /** The errors the builder can raise. */
  datatype CashflowError =
    | EmptyDateIndex          // the bounds of an empty date index cannot be formatted
    | TextColumn(column: string)   // the multiply column holds text, which cannot be multiplied by a number
    | LengthMismatch(param: string) // a spec's dates and values differ in length

  /** The outcome for one parameter. */
  datatype Contribution = Skipped | Emits(item: LineItem) | Raises(error: CashflowError)

  /** The forecast column to multiply against, when one is named; an empty name counts as none. */
  function MultiplyColumn(p: CashflowParam): (r: Option<string>)
    ensures r.Some? <==> p.multiply.Some? && p.multiply.value != ""
    ensures r.Some? ==> r.value == p.multiply.value
  {
    if p.multiply.Some? && p.multiply.value != "" then p.multiply else None
  }

  /** The constant is used in multiply mode only when it is truthy: given and non-zero. */
  predicate ConstGiven(p: CashflowParam) {
    p.constValue.Some? && p.constValue.value != 0.0
  }

  /** The bounds of an empty date index cannot be formatted as text. */
  predicate Unformattable(ctx: Context) {
    ctx.dateMode && |ctx.forecast.rows| == 0
  }

  /** The fields every line item starts from: name, forecast bounds and output frequency. */
  function Header(ctx: Context, p: CashflowParam): LineItem {
    var idx := Index(ctx.forecast);
    LineItem(p.name, IndexMin(idx), IndexMax(idx), ctx.freq, None, None)
  }

  /** The spec's dated values as a series; in date mode each date becomes the output-frequency period it falls in. */
  function SpecSeries(ctx: Context, av: ChgPts): (r: seq<(Time, real)>)
    requires |av.dates| == |av.values|
    ensures |r| == |av.dates|
    ensures forall i :: 0 <= i < |r| ==> r[i].1 == av.values[i]
    ensures forall i :: 0 <= i < |r| ==> r[i].0 == if ctx.dateMode then ToPeriod(ctx.freq, av.dates[i]) else av.dates[i]
  {
    seq(|av.dates|, i requires 0 <= i < |av.dates| =>
      (if ctx.dateMode then ToPeriod(ctx.freq, av.dates[i]) else av.dates[i], av.values[i]))
  }

  /** The change points of an aligned series: absent when nothing aligned. */
  function ChgPtsOf(aligned: seq<(Time, real)>): (r: Option<ChgPts>)
    ensures r.None? <==> |aligned| == 0
    ensures r.Some? ==> |r.value.dates| == |r.value.values| == |aligned|
    ensures r.Some? ==> forall i :: 0 <= i < |aligned| ==> r.value.dates[i] == aligned[i].0 && r.value.values[i] == aligned[i].1
  {
    if |aligned| == 0 then None else Some(ChgPts(Keys(aligned), ValuesOf(aligned)))
  }

  /**
   * Absolute mode (no multiply column): the spec's constant and change points
   * are copied verbatim; a zero constant is kept.
   */
  function AbsoluteItem(ctx: Context, p: CashflowParam): (r: LineItem)
    ensures r.name == p.name && r.freq == ctx.freq
    ensures r.start == IndexMin(Index(ctx.forecast)) && r.end == IndexMax(Index(ctx.forecast))
    ensures r.constValue.Some? <==> p.constValue.Some?
    ensures p.constValue.Some? ==> r.constValue == Some(Scalar(p.constValue.value))
    ensures r.chgpts == p.chgpts
  {
    var c := if p.constValue.Some? then Some(Scalar(p.constValue.value)) else None;
    Header(ctx, p).(constValue := c, chgpts := p.chgpts)
  }

  /** `forecast[col].multiply(k).tolist()`: the column scaled by `k`, one value per row. */
  function ScaledColumn(ctx: Context, col: string, k: real): (r: ConstValue)
    requires col in ctx.forecast.columns && NumericColumn(ctx.forecast, col)
    ensures r.Series? && |r.xs| == |ctx.forecast.rows|
    ensures forall i :: 0 <= i < |ctx.forecast.rows| ==> r.xs[i] == ctx.forecast.rows[i].cells[col].x * k
  {
    Series(Scale(Numbers(ctx.forecast, col), k))
  }

  /** The index values of a column series are the forecast's index values. */
  lemma NumbersIndex(f: Frame, col: string, t: Time)
    requires col in f.columns && NumericColumn(f, col)
    ensures Has(Numbers(f, col), t) <==> t in Index(f)
  {
    var s := Numbers(f, col);
    if t in Index(f) {
      var i :| 0 <= i < |Index(f)| && Index(f)[i] == t;
      assert s[i].0 == t;
    }
  }

  lemma AlignKeysAll(forecast: seq<(Time, real)>, spec: seq<(Time, real)>)
    ensures forall t :: Has(Align(forecast, spec), t) <==> Has(forecast, t) && Has(spec, t)
  {
    forall t ensures Has(Align(forecast, spec), t) <==> Has(forecast, t) && Has(spec, t) {
      AlignKeys(forecast, spec, t);
    }
  }

  /** The dates of the change points are the index values of the aligned series. */
  lemma ChgPtsOfDates(aligned: seq<(Time, real)>, t: Time)
    requires |aligned| > 0
    ensures t in ChgPtsOf(aligned).value.dates <==> Has(aligned, t)
  {
    var d := ChgPtsOf(aligned).value.dates;
    if t in d {
      var i :| 0 <= i < |d| && d[i] == t;
      assert aligned[i].0 == t;
    }
    if Has(aligned, t) {
      var i :| 0 <= i < |aligned| && aligned[i].0 == t;
      assert d[i] == t;
    }
  }

  /** The facts about aligned change points, stated on the pieces they are computed from. */
  lemma AlignedChgPtsFacts(f: Frame, col: string, sp: seq<(Time, real)>)
    requires col in f.columns && NumericColumn(f, col)
    ensures var r := ChgPtsOf(Align(Numbers(f, col), sp));
      && (r.None? <==> forall t :: t in Index(f) ==> !Has(sp, t))
      && (r.Some? ==> forall t :: t in r.value.dates <==> t in Index(f) && Has(sp, t))
      && (r.Some? ==> forall i :: 0 <= i < |r.value.dates| ==>
            MatchedProduct(Numbers(f, col), sp, (r.value.dates[i], r.value.values[i])))
  {
    var fc := Numbers(f, col);
    var aligned := Align(fc, sp);
    var r := ChgPtsOf(aligned);
    forall t ensures Has(aligned, t) <==> t in Index(f) && Has(sp, t) {
      AlignKeys(fc, sp, t);
      NumbersIndex(f, col, t);
    }
    if |aligned| > 0 {
      assert Has(aligned, aligned[0].0);
      forall t ensures t in r.value.dates <==> Has(aligned, t) {
        ChgPtsOfDates(aligned, t);
      }
      AlignValues(fc, sp);
      forall i | 0 <= i < |r.value.dates| ensures MatchedProduct(fc, sp, (r.value.dates[i], r.value.values[i])) {
        assert (r.value.dates[i], r.value.values[i]) == aligned[i];
      }
    }
  }

  /**
   * How often each change-point date occurs: as often as in the forecast when
   * the two indexes are equal, otherwise once per pair of a forecast entry and
   * a spec entry at that date.
   */
  lemma AlignedChgPtsCount(fc: seq<(Time, real)>, sp: seq<(Time, real)>)
    ensures ChgPtsOf(Align(fc, sp)).Some? ==> forall t ::
      multiset(ChgPtsOf(Align(fc, sp)).value.dates)[t] ==
        if Keys(fc) == Keys(sp) then multiset(Keys(fc))[t] else multiset(Keys(fc))[t] * multiset(Keys(sp))[t]
  {
    ChgPtsOfKeys(Align(fc, sp));
    forall t {
      AlignCount(fc, sp, t);
    }
  }

  /** The change points as (date, value) pairs, position by position. */
  function Points(c: ChgPts): (r: seq<(Time, real)>)
    requires |c.dates| == |c.values|
    ensures |r| == |c.dates|
    ensures forall i :: 0 <= i < |r| ==> r[i].0 == c.dates[i] && r[i].1 == c.values[i]
  {
    seq(|c.dates|, i requires 0 <= i < |c.dates| => (c.dates[i], c.values[i]))
  }

  /** When the indexes are equal, the change points pair each forecast entry with the spec entry at its position. */
  lemma AlignedChgPtsPositional(fc: seq<(Time, real)>, sp: seq<(Time, real)>)
    ensures var r := ChgPtsOf(Align(fc, sp));
      r.Some? && Keys(fc) == Keys(sp) ==> |r.value.dates| == |fc| && forall i :: 0 <= i < |fc| ==>
        r.value.dates[i] == fc[i].0 && r.value.values[i] == fc[i].1 * sp[i].1
  {
  }

  /**
   * When the indexes differ, the change points are exactly the products of
   * the matched pairs, each once, in some order.
   */
  lemma AlignedChgPtsPairs(fc: seq<(Time, real)>, sp: seq<(Time, real)>)
    ensures var r := ChgPtsOf(Align(fc, sp));
      r.Some? && Keys(fc) != Keys(sp) ==> multiset(Points(r.value)) == multiset(PairProducts(fc, sp))
  {
    var a := Align(fc, sp);
    var r := ChgPtsOf(a);
    if r.Some? && Keys(fc) != Keys(sp) {
      AlignPairs(fc, sp);
      assert Points(r.value) == a;
    }
  }

  /** When the forecast's index equals the spec's, the change points follow the forecast rows one for one. */
  lemma AlignedChgPtsRows(ctx: Context, col: string, av: ChgPts)
    requires col in ctx.forecast.columns && NumericColumn(ctx.forecast, col)
    requires |av.dates| == |av.values|
    ensures var r := ChgPtsOf(Align(Numbers(ctx.forecast, col), SpecSeries(ctx, av)));
      r.Some? && Index(ctx.forecast) == Keys(SpecSeries(ctx, av)) ==>
        r.value.dates == Index(ctx.forecast) && |r.value.values| == |ctx.forecast.rows| &&
        forall i :: 0 <= i < |ctx.forecast.rows| ==> r.value.values[i] == ctx.forecast.rows[i].cells[col].x * av.values[i]
  {
    var fc, sp := Numbers(ctx.forecast, col), SpecSeries(ctx, av);
    var r := ChgPtsOf(Align(fc, sp));
    if r.Some? && Index(ctx.forecast) == Keys(sp) {
      NumbersKeys(ctx.forecast, col);
      AlignedChgPtsPositional(fc, sp);
      forall i | 0 <= i < |ctx.forecast.rows|
        ensures r.value.values[i] == ctx.forecast.rows[i].cells[col].x * av.values[i]
      {
        assert fc[i].0 == ctx.forecast.rows[i].time && fc[i].1 == ctx.forecast.rows[i].cells[col].x;
        assert sp[i].1 == av.values[i];
      }
    }
  }

  /** `AlignedChgPtsCount` and `AlignedChgPtsPairs` for a forecast series whose index is `idx`. */
  lemma AlignedChgPtsMultiplicity(fc: seq<(Time, real)>, sp: seq<(Time, real)>, idx: seq<Time>)
    requires Keys(fc) == idx
    ensures var r := ChgPtsOf(Align(fc, sp));
      && (r.Some? ==>
            forall t :: multiset(r.value.dates)[t] ==
              if idx == Keys(sp) then multiset(idx)[t] else multiset(idx)[t] * multiset(Keys(sp))[t])
      && (r.Some? && idx != Keys(sp) ==> multiset(Points(r.value)) == multiset(PairProducts(fc, sp)))
  {
    AlignedChgPtsCount(fc, sp);
    AlignedChgPtsPairs(fc, sp);
  }

  /** The dates of change points built from a series are its index. */
  lemma ChgPtsOfKeys(aligned: seq<(Time, real)>)
    ensures ChgPtsOf(aligned).Some? ==> ChgPtsOf(aligned).value.dates == Keys(aligned)
  {
  }

  /** The index of a column series is the forecast's index. */
  lemma NumbersKeys(f: Frame, col: string)
    requires col in f.columns && NumericColumn(f, col)
    ensures Keys(Numbers(f, col)) == Index(f)
  {
  }

  /**
   * `forecast[col].multiply(spec).dropna()` as change points, absent when
   * nothing aligned: row by row when the forecast's index equals the spec's,
   * and otherwise one per pair of a forecast row and a spec entry at the same
   * index value, with the product of their values.
   */
  function AlignedChgPts(ctx: Context, col: string, av: ChgPts): (r: Option<ChgPts>)
    requires col in ctx.forecast.columns && NumericColumn(ctx.forecast, col)
    requires |av.dates| == |av.values|
    ensures r.None? <==> forall t :: t in Index(ctx.forecast) ==> !Has(SpecSeries(ctx, av), t)
    ensures r.Some? ==> forall t :: t in r.value.dates <==> t in Index(ctx.forecast) && Has(SpecSeries(ctx, av), t)
    ensures r.Some? ==> |r.value.dates| == |r.value.values|
    ensures r.Some? ==> forall i :: 0 <= i < |r.value.dates| ==>
      MatchedProduct(Numbers(ctx.forecast, col), SpecSeries(ctx, av), (r.value.dates[i], r.value.values[i]))
    ensures r.Some? ==>
      forall t :: multiset(r.value.dates)[t] ==
        if Index(ctx.forecast) == Keys(SpecSeries(ctx, av)) then multiset(Index(ctx.forecast))[t]
        else multiset(Index(ctx.forecast))[t] * multiset(Keys(SpecSeries(ctx, av)))[t]
    ensures r.Some? && Index(ctx.forecast) == Keys(SpecSeries(ctx, av)) ==>
      r.value.dates == Index(ctx.forecast) && |r.value.values| == |ctx.forecast.rows| &&
      forall i :: 0 <= i < |ctx.forecast.rows| ==> r.value.values[i] == ctx.forecast.rows[i].cells[col].x * av.values[i]
    ensures r.Some? && Index(ctx.forecast) != Keys(SpecSeries(ctx, av)) ==>
      multiset(Points(r.value)) == multiset(PairProducts(Numbers(ctx.forecast, col), SpecSeries(ctx, av)))
  {
    AlignedChgPtsFacts(ctx.forecast, col, SpecSeries(ctx, av));
    NumbersKeys(ctx.forecast, col);
    AlignedChgPtsMultiplicity(Numbers(ctx.forecast, col), SpecSeries(ctx, av), Index(ctx.forecast));
    AlignedChgPtsRows(ctx, col, av);
    ChgPtsOf(Align(Numbers(ctx.forecast, col), SpecSeries(ctx, av)))
  }

  /** The dated values are malformed: their dates and values differ in length. */
  predicate Malformed(av: Option<ChgPts>) {
    av.Some? && |av.value.dates| != |av.value.values|
  }

  /** Multiply mode needs numbers in the column: for a truthy constant or for dated values. */
  predicate NeedsNumbers(p: CashflowParam) {
    ConstGiven(p) || p.arrayValues.Some?
  }

  /**
   * Multiply mode against an existing column `col`: a truthy constant scales
   * the whole column; dated values are aligned with the column and set as
   * change points only when something aligned. A text cell anywhere in the
   * column raises when the constant or the dated values multiply it, as does
   * a spec whose dates and values differ in length.
   */
  function MultipliedItem(ctx: Context, p: CashflowParam, col: string): (r: Contribution)
    requires col in ctx.forecast.columns
    ensures !r.Skipped?
    ensures r.Emits? ==> r.item.name == p.name && r.item.freq == ctx.freq
    ensures r.Emits? ==> r.item.start == IndexMin(Index(ctx.forecast)) && r.item.end == IndexMax(Index(ctx.forecast))
    // a constant exactly when the spec's is truthy, and then the scaled column
    ensures r.Emits? ==> (r.item.constValue.Some? <==> ConstGiven(p))
    ensures r.Emits? && ConstGiven(p) ==>
      NumericColumn(ctx.forecast, col) && r.item.constValue == Some(ScaledColumn(ctx, col, p.constValue.value))
    // change points only from dated values, and then exactly the alignment
    ensures r.Emits? && r.item.chgpts.Some? ==> p.arrayValues.Some?
    ensures r.Emits? && p.arrayValues.Some? ==>
      && !Malformed(p.arrayValues)
      && NumericColumn(ctx.forecast, col)
      && r.item.chgpts == AlignedChgPts(ctx, col, p.arrayValues.value)
    // it raises exactly when the column holds text and the constant or the dated values need
    // numbers, or when the dated values are malformed
    ensures r.Raises? <==> (NeedsNumbers(p) && !NumericColumn(ctx.forecast, col)) || Malformed(p.arrayValues)
    ensures r.Raises? ==> r.error == TextColumn(col) || r.error == LengthMismatch(p.name)
  {
    if ConstGiven(p) && !NumericColumn(ctx.forecast, col) then Raises(TextColumn(col))
    else if Malformed(p.arrayValues) then Raises(LengthMismatch(p.name))
    else if p.arrayValues.Some? && !NumericColumn(ctx.forecast, col) then Raises(TextColumn(col))
    else
      var c := if ConstGiven(p) then Some(ScaledColumn(ctx, col, p.constValue.value)) else None;
      var pts := if p.arrayValues.Some? then AlignedChgPts(ctx, col, p.arrayValues.value) else None;
      Emits(Header(ctx, p).(constValue := c, chgpts := pts))
  }

  /**
   * Dated values sharing no index value with the forecast leave the item
   * without change points, but the item is still emitted.
   */
  lemma NoOverlapStillEmits(ctx: Context, p: CashflowParam, col: string)
    requires col in ctx.forecast.columns && NumericColumn(ctx.forecast, col)
    requires p.arrayValues.Some? && !Malformed(p.arrayValues)
    requires forall t :: t in Index(ctx.forecast) ==> !Has(SpecSeries(ctx, p.arrayValues.value), t)
    ensures MultipliedItem(ctx, p, col).Emits?
    ensures MultipliedItem(ctx, p, col).item.chgpts.None?
  {
  }

  /**
   * The contribution of one parameter. The header needs the forecast's
   * bounds, which fail on an empty date index; then a spec without a multiply
   * column is used as is, and one whose column is missing is skipped.
   */
  function Contribute(ctx: Context, p: CashflowParam): (r: Contribution)
    // every line item carries the parameter's name, the forecast's bounds and the output frequency
    ensures r.Emits? ==> r.item.name == p.name && r.item.freq == ctx.freq
    ensures r.Emits? ==> r.item.start == IndexMin(Index(ctx.forecast)) && r.item.end == IndexMax(Index(ctx.forecast))
    // skipped exactly when the multiply column is missing from the forecast
    ensures r.Skipped? <==>
      !Unformattable(ctx) && MultiplyColumn(p).Some? && MultiplyColumn(p).value !in ctx.forecast.columns
    // an empty date index always raises; without a multiply column nothing else can
    ensures Unformattable(ctx) ==> r == Raises(EmptyDateIndex)
    ensures !Unformattable(ctx) && MultiplyColumn(p).None? ==> r == Emits(AbsoluteItem(ctx, p))
    ensures !Unformattable(ctx) && MultiplyColumn(p).Some? && MultiplyColumn(p).value in ctx.forecast.columns ==>
      r == MultipliedItem(ctx, p, MultiplyColumn(p).value)
  {
    if Unformattable(ctx) then Raises(EmptyDateIndex)
    else
      match MultiplyColumn(p)
      case None => Emits(AbsoluteItem(ctx, p))
      case Some(col) =>
        if col !in ctx.forecast.columns then Skipped else MultipliedItem(ctx, p, col)
  }
}

=== FILE: optional.dfy ===
/** Optional values and results with an error, the shapes Python's `None` and raised exceptions take here. */
module Optional {

  /** A value that may be absent (Python's `None`). */
  datatype Option<+T> = None | Some(value: T)

  /** A value or the error that was raised instead of producing it. */
  datatype Result<+T, +E> = Ok(value: T) | Err(error: E)
}

=== FILE: ordered_lists.dfy ===
/**
 * An insertion-ordered map from keys to lists (a Python dict of lists), as a
 * sequence of entries.
 */
module OrderedLists {
  import opened Optional

  /** Entries in insertion order; a key is meant to occur at most once. */
  type Entries<K, V> = seq<(K, seq<V>)>

  /** The keys of a sequence of pairs, in order: the keys of a map, or the index of a series. */
  function Keys<K, V>(m: seq<(K, V)>): (r: seq<K>)
    ensures |r| == |m|
    ensures forall i :: 0 <= i < |r| ==> r[i] == m[i].0
  {
    seq(|m|, i requires 0 <= i < |m| => m[i].0)
  }

  /** No key occurs twice. */
  predicate DistinctKeys<K(==), V>(m: Entries<K, V>) {
    forall i, j :: 0 <= i < j < |m| ==> m[i].0 != m[j].0
  }

  /** `if k not in d: d[k] = []`: a new key goes last with an empty list; an existing map is unchanged. */
  function EnsureKey<K(==), V>(m: Entries<K, V>, k: K): (r: Entries<K, V>)
    ensures k in Keys(r)
    ensures k in Keys(m) ==> r == m
    ensures k !in Keys(m) ==> r == m + [(k, [])]
    ensures DistinctKeys(m) ==> DistinctKeys(r)
  {
    if k in Keys(m) then m
    else
      var r := m + [(k, [])];
      assert Keys(r)[|m|] == k;
      r
  }

  /** `d[k].append(v)`: `v` goes at the end of `k`'s list; keys, their order and other lists are unchanged. */
  function Append<K(==), V>(m: Entries<K, V>, k: K, v: V): (r: Entries<K, V>)
    ensures |r| == |m|
    ensures forall i :: 0 <= i < |r| ==> r[i].0 == m[i].0
    ensures forall i :: 0 <= i < |r| ==> r[i].1 == if m[i].0 == k then m[i].1 + [v] else m[i].1
  {
    seq(|m|, i requires 0 <= i < |m| => if m[i].0 == k then (k, m[i].1 + [v]) else m[i])
  }

  /** Drops the keys whose list is empty, keeping the order of the rest. */
  function Prune<K(==,!new), V(==,!new)>(m: Entries<K, V>): (r: Entries<K, V>)
    ensures |r| <= |m|
    ensures forall i :: 0 <= i < |r| ==> |r[i].1| > 0
    ensures forall e :: e in r <==> e in m && |e.1| > 0
    ensures DistinctKeys(m) ==> DistinctKeys(r)
  {
    if |m| == 0 then []
    else
      var rest := Prune(m[1..]);
      PruneStep(m, rest);
      if |m[0].1| == 0 then rest else [m[0]] + rest
  }

  /** One step of `Prune`: its contract for `m`, given its contract for the tail of `m`. */
  lemma PruneStep<K(!new), V(!new)>(m: Entries<K, V>, rest: Entries<K, V>)
    requires |m| > 0
    requires forall e :: e in rest <==> e in m[1..] && |e.1| > 0
    requires DistinctKeys(m[1..]) ==> DistinctKeys(rest)
    ensures var r := if |m[0].1| == 0 then rest else [m[0]] + rest;
      && (forall e :: e in r <==> e in m && |e.1| > 0)
      && (DistinctKeys(m) ==> DistinctKeys(r))
  {
    assert forall e :: e in m <==> e == m[0] || e in m[1..];
    if DistinctKeys(m) {
      DistinctTail(m);
      if |m[0].1| > 0 {
        PruneConsDistinct(m, rest);
      }
    }
  }

  /** The tail of a map without repeated keys has none either. */
  lemma DistinctTail<K, V>(m: Entries<K, V>)
    requires |m| > 0 && DistinctKeys(m)
    ensures DistinctKeys(m[1..])
  {
    forall i, j | 0 <= i < j < |m[1..]| ensures m[1..][i].0 != m[1..][j].0 {
      assert m[1..][i] == m[i + 1] && m[1..][j] == m[j + 1];
    }
  }

  /** Keeping the first entry in front of entries drawn from the distinct tail keeps the keys distinct. */
  lemma PruneConsDistinct<K(!new), V(!new)>(m: Entries<K, V>, rest: Entries<K, V>)
    requires |m| > 0 && DistinctKeys(m) && DistinctKeys(rest)
    requires forall e :: e in rest ==> e in m[1..]
    ensures DistinctKeys([m[0]] + rest)
  {
    forall e | e in rest ensures e.0 != m[0].0 {
      var j :| 0 <= j < |m[1..]| && m[1..][j] == e;
      assert m[j + 1] == e;
    }
    var r := [m[0]] + rest;
    forall i, j | 0 <= i < j < |r| ensures r[i].0 != r[j].0 {
      assert r[j] == rest[j - 1] && r[j] in rest;
      if i > 0 {
        assert r[i] == rest[i - 1];
      }
    }
  }

  /** Pruning works entry by entry: pruning a concatenation concatenates the pruned parts, so order is kept. */
  lemma {:induction false} PruneConcat<K(!new), V(!new)>(a: Entries<K, V>, b: Entries<K, V>)
    ensures Prune(a + b) == Prune(a) + Prune(b)
  {
    if |a| > 0 {
      assert (a + b)[0] == a[0];
      assert (a + b)[1..] == a[1..] + b;
      PruneConcat(a[1..], b);
    } else {
      assert a + b == b;
    }
  }

  /** The keys of `m` appear in strictly increasing `rank`. */
  predicate RankedKeys<K, V>(m: Entries<K, V>, rank: K -> int) {
    forall i, j :: 0 <= i < j < |m| ==> rank(m[i].0) < rank(m[j].0)
  }

  /** Pruning keeps the surviving keys in their original relative order, whatever order that is. */
  lemma {:induction false} PruneKeepsOrder<K(!new), V(!new)>(m: Entries<K, V>, rank: K -> int)
    requires RankedKeys(m, rank)
    ensures RankedKeys(Prune(m), rank)
  {
    if |m| > 0 {
      var tail := m[1..];
      assert RankedKeys(tail, rank) by {
        forall i, j | 0 <= i < j < |tail| ensures rank(tail[i].0) < rank(tail[j].0) {
          assert tail[i] == m[i + 1] && tail[j] == m[j + 1];
        }
      }
      PruneKeepsOrder(tail, rank);
      if |m[0].1| > 0 {
        PruneHeadFirst(m, rank);
      }
    }
  }

  /** A kept first entry ranks below every entry that survives after it. */
  lemma PruneHeadFirst<K(!new), V(!new)>(m: Entries<K, V>, rank: K -> int)
    requires |m| > 0 && |m[0].1| > 0
    requires RankedKeys(m, rank) && RankedKeys(Prune(m[1..]), rank)
    ensures RankedKeys(Prune(m), rank)
  {
    var rest := Prune(m[1..]);
    var r := Prune(m);
    assert r == [m[0]] + rest;
    forall j | 0 <= j < |rest| ensures rank(m[0].0) < rank(rest[j].0) {
      assert rest[j] in m[1..];
      var k :| 0 <= k < |m[1..]| && m[1..][k] == rest[j];
      assert m[k + 1] == rest[j];
    }
    RankedCons(m[0], rest, rank);
  }

  lemma RankedCons<K, V>(head: (K, seq<V>), rest: Entries<K, V>, rank: K -> int)
    requires RankedKeys(rest, rank)
    requires forall j :: 0 <= j < |rest| ==> rank(head.0) < rank(rest[j].0)
    ensures RankedKeys([head] + rest, rank)
  {
    var r := [head] + rest;
    forall i, j | 0 <= i < j < |r| ensures rank(r[i].0) < rank(r[j].0) {
      assert r[j] == rest[j - 1];
      if i > 0 {
        assert r[i] == rest[i - 1];
      }
    }
  }

  /** Pruning a map with no empty list changes nothing. */
  lemma {:induction false} PruneNoEmpty<K(!new), V(!new)>(m: Entries<K, V>)
    requires forall i :: 0 <= i < |m| ==> |m[i].1| > 0
    ensures Prune(m) == m
  {
    if |m| > 0 {
      PruneNoEmpty(m[1..]);
      assert [m[0]] + m[1..] == m;
    }
  }

  /** Deleting from a dict while iterating over it raises on the next step. */
  datatype IterationError = DictChangedSize

  /**
   * The pruning loop as written: `for key in d: if len(d[key]) == 0: del d[key]`.
   * The first deletion changes the dict's size mid-iteration, so the loop
   * raises whenever some list is empty, and leaves the map as it was otherwise.
   */
  function PruneAsWritten<K, V>(m: Entries<K, V>): (r: Result<Entries<K, V>, IterationError>)
    ensures r.Ok? <==> forall i :: 0 <= i < |m| ==> |m[i].1| > 0
    ensures r.Ok? ==> r.value == m
  {
    if exists i :: 0 <= i < |m| && |m[i].1| == 0 then Err(DictChangedSize) else Ok(m)
  }

  /** Where the loop as written does not raise, it agrees with `Prune`; it raises exactly where `Prune` drops a key. */
  lemma PruneAsWrittenAgrees<K(!new), V(!new)>(m: Entries<K, V>)
    ensures PruneAsWritten(m).Ok? ==> PruneAsWritten(m).value == Prune(m)
    ensures PruneAsWritten(m).Err? <==> |Prune(m)| < |m|
  {
    if PruneAsWritten(m).Ok? {
      PruneNoEmpty(m);
    } else {
      var i :| 0 <= i < |m| && |m[i].1| == 0;
      PruneDrops(m, i);
    }
  }

  /** Pruning a map holding an empty list shortens it. */
  lemma {:induction false} PruneDrops<K(!new), V(!new)>(m: Entries<K, V>, i: int)
    requires 0 <= i < |m| && |m[i].1| == 0
    ensures |Prune(m)| < |m|
  {
    if i > 0 {
      assert m[1..][i - 1] == m[i];
      PruneDrops(m[1..], i - 1);
    }
  }
}

=== FILE: periods.dfy ===
/**
 * A forecast period: its validated time window and the forecast it stores
 * once its curve model has been run.
 */
module Periods {
  import opened Optional
  import opened Times
  import opened Frames
  import opened CashflowInput

  /**
   * A period's fields. `start` and `end` are meant to share one time kind;
   * the curve model itself is not a field here but the argument of
   * `GenerateForecast`.
   */
  datatype Period = Period(
    name: string,
    start: Time,
    end: Option<Time>,
    timeList: Option<seq<Time>>,
    freqInput: Freq,
    freqOutput: Freq,
    rateLimit: Option<real>,
    cumLimit: Option<real>,
    cashflowParams: Option<seq<CashflowParam>>,
    depends: Option<string>,
    forecast: Option<Frame>)

  /** A field that failed validation. */
  datatype FieldError = EndTypeMismatch | NegativeRateLimit | NegativeCumLimit

  /** A limit is absent or at least zero. */
  predicate NonNegative(limit: Option<real>) {
    limit.None? || limit.value >= 0.0
  }

  /**
   * The end validator at construction: a given end must have the start's
   * type. `None` here means the end was omitted, which skips the validator; an
   * explicit `end=None` is rejected like a mismatched end (see `SetEnd`) and
   * is not modelled for construction.
   */
  predicate EndMatchesStart(start: Time, end: Option<Time>) {
    end.None? || SameKind(start, end.value)
  }

  /** The invariant construction establishes: start and end share one time kind. */
  predicate ModesAgree(p: Period) {
    EndMatchesStart(p.start, p.end)
  }

  /** Where a validated field is declared among the period's fields: `end`, then `rate_limit`, then `cum_limit`. */
  function FieldRank(e: FieldError): nat {
    match e
    case EndTypeMismatch => 0
    case NegativeRateLimit => 1
    case NegativeCumLimit => 2
  }

  /** The failed fields, each once and in declaration order, as one validation error lists them. */
  function FieldErrors(start: Time, end: Option<Time>, rateLimit: Option<real>, cumLimit: Option<real>): (errs: seq<FieldError>)
    ensures forall i, j :: 0 <= i < j < |errs| ==> FieldRank(errs[i]) < FieldRank(errs[j])
    ensures EndTypeMismatch in errs <==> !EndMatchesStart(start, end)
    ensures NegativeRateLimit in errs <==> !NonNegative(rateLimit)
    ensures NegativeCumLimit in errs <==> !NonNegative(cumLimit)
    ensures |errs| == 0 <==> EndMatchesStart(start, end) && NonNegative(rateLimit) && NonNegative(cumLimit)
  {
    (if EndMatchesStart(start, end) then [] else [EndTypeMismatch])
    + (if NonNegative(rateLimit) then [] else [NegativeRateLimit])
    + (if NonNegative(cumLimit) then [] else [NegativeCumLimit])
  }

  /**
   * Constructs a period, validating every field: it fails when a given end's
   * type differs from the start's or a limit is negative. An `end` of `None`
   * stands for an omitted end. A new period has no forecast yet.
   */
  function NewPeriod(
    name: string, start: Time, end: Option<Time>, timeList: Option<seq<Time>>,
    freqInput: Freq, freqOutput: Freq, rateLimit: Option<real>, cumLimit: Option<real>,
    cashflowParams: Option<seq<CashflowParam>>, depends: Option<string>): (r: Result<Period, seq<FieldError>>)
    ensures r.Ok? <==> EndMatchesStart(start, end) && NonNegative(rateLimit) && NonNegative(cumLimit)
    ensures r.Ok? ==> ModesAgree(r.value) && r.value.forecast.None?
    ensures r.Ok? ==>
      r.value == Period(name, start, end, timeList, freqInput, freqOutput, rateLimit, cumLimit, cashflowParams, depends, None)
    ensures r.Err? ==> |r.error| > 0 && (EndTypeMismatch in r.error <==> !EndMatchesStart(start, end))
  {
    var errs := FieldErrors(start, end, rateLimit, cumLimit);
    if |errs| == 0 then
      Ok(Period(name, start, end, timeList, freqInput, freqOutput, rateLimit, cumLimit, cashflowParams, depends, None))
    else Err(errs)
  }

  /**
   * Assigning `end` on an existing period (assignments are validated): the
   * validator also runs on an explicit `None`, whose type never equals the
   * start's, so it succeeds exactly when the new end is a time of the
   * start's kind, and then changes nothing else.
   */
  function SetEnd(p: Period, end: Option<Time>): (r: Result<Period, seq<FieldError>>)
    ensures r.Ok? <==> end.Some? && SameKind(p.start, end.value)
    ensures r.Ok? ==> r.value == p.(end := end) && ModesAgree(r.value) && r.value.end.Some?
    ensures r.Err? ==> r.error == [EndTypeMismatch]
  {
    if end.Some? && SameKind(p.start, end.value) then Ok(p.(end := end)) else Err([EndTypeMismatch])
  }

  /**
   * Assigning `start`: only `end` has a validator, so any start is accepted,
   * even one whose type differs from the end's; every other field is kept.
   */
  function SetStart(p: Period, start: Time): (r: Period)
    ensures r == p.(start := start)
  {
    p.(start := start)
  }

  /** Assigning `start` can break the invariant that construction and `SetEnd` keep. */
  lemma SetStartCanBreakModes()
    ensures exists p: Period, s: Time :: ModesAgree(p) && !ModesAgree(SetStart(p, s))
  {
    var p := Period("p", Ordinal(0), Some(Ordinal(10)), None, Monthly, Monthly, None, None, None, None, None);
    var s := Calendar(YearMonthDay(2021, 1, 1));
    assert ModesAgree(p) && !ModesAgree(SetStart(p, s));
  }

  /**
   * True when the period runs on calendar dates, false when it runs on
   * ordinals; decided by the start alone.
   */
  function DateMode(p: Period): (r: bool)
    ensures r <==> p.start.Calendar?
    ensures !r <==> p.start.Ordinal?
    ensures ModesAgree(p) && p.end.Some? ==> (r <==> p.end.value.Calendar?)
  {
    p.start.Calendar?
  }

  /** Every successfully constructed period answers its date mode consistently with both ends. */
  lemma NewPeriodDateMode(
    name: string, start: Time, end: Option<Time>, timeList: Option<seq<Time>>,
    freqInput: Freq, freqOutput: Freq, rateLimit: Option<real>, cumLimit: Option<real>,
    cashflowParams: Option<seq<CashflowParam>>, depends: Option<string>)
    requires NewPeriod(name, start, end, timeList, freqInput, freqOutput, rateLimit, cumLimit, cashflowParams, depends).Ok?
    ensures var p := NewPeriod(name, start, end, timeList, freqInput, freqOutput, rateLimit, cumLimit, cashflowParams, depends).value;
      (DateMode(p) <==> start.Calendar?) && (end.Some? ==> (DateMode(p) <==> end.value.Calendar?))
  {
  }

  /** The arguments a period hands its curve model's `forecast`. */
  datatype ForecastRequest = ForecastRequest(
    timeList: Option<seq<Time>>,
    start: Time,
    end: Option<Time>,
    freqInput: Freq,
    freqOutput: Freq,
    rateLimit: Option<real>,
    cumLimit: Option<real>)

  function RequestOf(p: Period): ForecastRequest {
    ForecastRequest(p.timeList, p.start, p.end, p.freqInput, p.freqOutput, p.rateLimit, p.cumLimit)
  }

  /**
   * Runs the curve model `curve` on the period's window and limits, writes
   * the period's name into the `period` column of every row, stores the
   * result as the period's forecast and returns it.
   */
  function GenerateForecast(p: Period, curve: ForecastRequest -> Frame): (r: (Period, Frame))
    ensures var out := curve(RequestOf(p));
      && r.1.columns == out.columns + {PeriodColumn}
      && Index(r.1) == Index(out)
      && (forall i :: 0 <= i < |r.1.rows| ==> r.1.rows[i].cells[PeriodColumn] == Text(p.name))
      && (forall i, c :: 0 <= i < |r.1.rows| && c in out.columns && c != PeriodColumn ==>
            r.1.rows[i].cells[c] == out.rows[i].cells[c])
    ensures r.0 == p.(forecast := Some(r.1))
  {
    var stamped := StampPeriod(curve(RequestOf(p)), p.name);
    (p.(forecast := Some(stamped)), stamped)
  }

  /** Forecasting twice with the same curve model stores the same forecast: a rerun overwrites the first. */
  lemma GenerateForecastIdempotent(p: Period, curve: ForecastRequest -> Frame)
    ensures GenerateForecast(GenerateForecast(p, curve).0, curve) == GenerateForecast(p, curve)
  {
  }
}

=== FILE: times.dfy ===
/**
 * Time values of a period window. A period is indexed either by ordinal
 * steps (`int`) or by calendar dates (`datetime.date`); the two kinds never mix
 * in a well-formed period.
 */
module Times {
  import opened Optional

  /** The fields of a calendar date; no calendar arithmetic is modelled. */
  datatype YearMonthDay = YearMonthDay(year: int, month: int, day: int)

  /** A calendar date: a month in 1..12 and a day in 1..31; month lengths and the year range are not modelled. */
  type Date = d: YearMonthDay | 1 <= d.month <= 12 && 1 <= d.day <= 31 witness YearMonthDay(1970, 1, 1)

  /** Sampling frequency of a series: 'M' (monthly), 'D' (daily) or 'A' (annual). */
  datatype Freq = Monthly | Daily | Annual

  /** A point of a period's time axis: an ordinal step or a calendar date. */
  datatype Time = Ordinal(step: int) | Calendar(date: Date)

  /** True when two time values have the same runtime type (`type(a) == type(b)`). */
  predicate SameKind(a: Time, b: Time) {
    a.Ordinal? == b.Ordinal?
  }

  /** Chronological order on dates: year, then month, then day. */
  predicate DateLeq(d: Date, e: Date) {
    || d.year < e.year
    || (d.year == e.year && d.month < e.month)
    || (d.year == e.year && d.month == e.month && d.day <= e.day)
  }

  /**
   * Order of an index: ordinals by value, dates chronologically. An index never
   * mixes the two kinds; to keep the order total, ordinals sort first.
   */
  predicate Leq(a: Time, b: Time) {
    match (a, b)
    case (Ordinal(x), Ordinal(y)) => x <= y
    case (Calendar(d), Calendar(e)) => DateLeq(d, e)
    case (Ordinal(_), Calendar(_)) => true
    case (Calendar(_), Ordinal(_)) => false
  }

  /**
   * The period of frequency `f` a date falls in, represented by its first day
   * (pandas `to_period`). Ordinal values have no calendar and pass unchanged.
   */
  function ToPeriod(f: Freq, t: Time): (r: Time)
    ensures SameKind(r, t)
    ensures t.Ordinal? || f == Daily ==> r == t
    ensures t.Calendar? && f == Monthly ==> r.date == YearMonthDay(t.date.year, t.date.month, 1)
    ensures t.Calendar? && f == Annual ==> r.date == YearMonthDay(t.date.year, 1, 1)
    ensures t.Calendar? ==> Leq(r, t)
  {
    match t
    case Ordinal(_) => t
    case Calendar(YearMonthDay(y, m, d)) =>
      match f
      case Daily => t
      case Monthly => Calendar(YearMonthDay(y, m, 1))
      case Annual => Calendar(YearMonthDay(y, 1, 1))
  }

  /** Truncating to a period twice is truncating once, and two dates of one month share their monthly period. */
  lemma ToPeriodProperties(f: Freq, t: Time, u: Time)
    ensures ToPeriod(f, ToPeriod(f, t)) == ToPeriod(f, t)
    ensures f == Monthly && t.Calendar? && u.Calendar? && t.date.year == u.date.year && t.date.month == u.date.month
            ==> ToPeriod(f, t) == ToPeriod(f, u)
    ensures f == Daily ==> ToPeriod(f, t) == t
  {
  }

  /** The smallest value of an index (`index.min()`); `None` stands for the NaN of an empty index. */
  function IndexMin(ts: seq<Time>): (r: Option<Time>)
    ensures r.None? <==> |ts| == 0
    ensures r.Some? ==> r.value in ts
    ensures r.Some? ==> forall i :: 0 <= i < |ts| ==> Leq(r.value, ts[i])
  {
    if |ts| == 0 then None
    else
      var rest := IndexMin(ts[1..]);
      if rest.None? || Leq(ts[0], rest.value) then Some(ts[0]) else rest
  }

  /** The largest value of an index (`index.max()`); `None` stands for the NaN of an empty index. */
  function IndexMax(ts: seq<Time>): (r: Option<Time>)
    ensures r.None? <==> |ts| == 0
    ensures r.Some? ==> r.value in ts
    ensures r.Some? ==> forall i :: 0 <= i < |ts| ==> Leq(ts[i], r.value)
  {
    if |ts| == 0 then None
    else
      var rest := IndexMax(ts[1..]);
      if rest.None? || Leq(rest.value, ts[0]) then Some(ts[0]) else rest
  }
}
